=== FILE: README.md ===
# udn breaking-news crawler, modelled in Dafny

This project models the pure core of a small crawler for the United Daily
News (聯合報) breaking-news feed, and proves properties of that model. The
crawler has two parts:

- `udn_crawler.py`, the Python crawler:
  - `build_request` builds the request for one page of `https://udn.com/api/more`.
  - `normalize_article` turns one raw listing entry into a sparse record with
    `title`, `link`, `summary`, `time` and `image`.
  - `crawl_breaking_news` fetches pages 0, 1, … and concatenates the
    normalized `lists` of each page. It stops on `end` and sleeps between pages.
  - `main` refuses fewer than one page and maps crawl failures to exit codes.
- `deno/udn_postprocess.ts`, a Deno post-processor:
  - It has its own `normalizeArticle`.
  - A filter → map → filter pipeline turns `payload.lists` into the published array.

Modules, one concept each:

| file | module | what it holds |
|---|---|---|
| `wrappers.dfy` | `Wrappers` | `Option` and `Result` |
| `seqs.dfy` | `Seqs` | `Filter` and the subsequence relation |
| `json.dfy` | `Json` | the JSON value type; objects are ordered member lists and lookups are last-wins; Python truth and JavaScript truth |
| `text.dfy` | `Text` | `str.strip()` and `String.prototype.trim()`, each with its own whitespace set |
| `url.dfy` | `Url` | a restricted resolver against `https://udn.com`, for `urljoin` (section 5.2 of RFC 3986) and for `new URL` (WHATWG URL Standard) |
| `decimal.dfy` | `Decimal` | `str(int)` and its inverse |
| `request.dfy` | `Request` | `build_request` |
| `normalize_py.dfy` | `PyNormalize` | Python `normalize_article` |
| `crawler.dfy` | `Crawler` | `crawl_breaking_news` and `main` |
| `postprocess.dfy` | `JsPostprocess` | the Deno `normalizeArticle` and its pipeline |
| `runtimes.dfy` | `Runtimes` | where the two normalizers disagree on the same entry |

How the outside world enters the model:

- The network becomes a parameter, `answer: nat -> PageOutcome`. For each page number it gives either a decoded payload or the reason the fetch failed: an HTTP status, an unreachable host, or a response that cannot be read or decoded: any failure once the request is sent, such as no status line in time, a body read that times out, or a body that is not JSON.
- A sleep becomes a `Sleep(delay)` event in the trace.
- A fetch becomes a `Fetch(page)` event. `Request.PagesAreDistinguished` shows that different pages send different requests, so the request sent identifies its page and the event can name the page. `Crawler.NoRequestSentTwice` ties the two together: no crawl sends the same request (`Crawler.PageRequest`) twice.
- The loop (`Crawler.Loop`) is stated over what each page yields, a `Step`: an exception, or the page's articles with its `end` flag. `Crawler.Process` turns a page's answer into its step.

Python exceptions are modelled as `Failure` values:

- `AttributeError` when a page's payload is not a dict, so `payload.get` does not exist (`Crawler.PayloadNotADict`).
- `AttributeError` when an entry is not a dict.
- `AttributeError` when `.strip()` is applied to a truthy non-string `title` or `paragraph`.
- `TypeError` when `urljoin` is given a truthy non-string link.
- `TypeError` when `lists` is not iterable.
- The uncaught error of a failure once the request is sent: a body that is not JSON, or a `TimeoutError` while waiting for the status line or reading the body (not a `URLError`).

Behaviour of the code worth knowing:

- Pages are numbered from 0. A payload with `end` on page k therefore ends the crawl after k + 1 fetches (`Crawler.EndStopsCrawl`).
- The normalizer is not total. A truthy non-string `title`, `titleLink` or `paragraph` raises, the first of them in that order deciding the exception (`PyNormalize.TruthyNonStringTitleRaises`, `PyNormalize.TruthyNonStringLinkRaises`, `PyNormalize.TruthyNonStringParagraphRaises`). A falsy `titleLink` (`0`, `false`, `null`, `[]`, `{}`) becomes "" through `or ""` and resolves to the base.
- The normalizer is not idempotent. Normalizing a record with a summary again loses the summary, because the summary is read from `paragraph` (`PyNormalize.RenormalizingLosesSummary`).
- A negative delay is not rejected. It only means that no sleep happens.
- A response that times out once the request is sent, or whose body is not JSON, is not caught by `main`: `fetch_page` converts only `HTTPError` and `URLError`. It escapes as an uncaught exception (`Crawler.Main`, `Uncaught`).
- The Python record can lack `title`. Only the Deno pipeline drops untitled entries.

## Model

| member | source | states |
|---|---|---|
| Request.BuildRequest | udn_crawler.py:28-39 | The request goes to `https://udn.com/api/more` with exactly the query keys `page`, `id`, `channelId`, `type`, in that order. The first three values are decimal strings that parse back to the page and the ids, `type` is the news type unchanged, and the only header is the fixed User-Agent. |
| Request.PagesAreDistinguished | udn_crawler.py:46-48 | Different pages give different requests, so a fetch event can name its page. |
| Decimal.FormatInt | udn_crawler.py:33-35 | `str(i)` is non-empty decimal digits without a leading zero, preceded by `-` exactly when `i` is negative. |
| Decimal.ParseFormatInt | udn_crawler.py:33-35 | `str` of an integer reads back as that integer. |
| Text.Trim | udn_crawler.py:73-76 | `strip()` (and `trim()` at deno/udn_postprocess.ts:20-40) gives a slice of the string with no whitespace at either end. |
| Text.TrimCutsOnlySpaces | udn_crawler.py:73-76 | What stripping cuts off, before and after the slice it keeps, is whitespace of the runtime and nothing else. |
| Text.TrimIdempotent | udn_crawler.py:73 | Stripping an already stripped string changes nothing, in either runtime. |
| Text.TrimEmptyIffAllSpace | udn_crawler.py:73 | Stripping gives "" exactly when every character is whitespace. |
| Json.TruthinessDiffersOnlyOnEmptyContainers | deno/udn_postprocess.ts:68 | Python truth and JavaScript truth disagree exactly on the empty array and the empty object. |
| Json.Get | udn_crawler.py:60-61 | `dict.get` and property reads: a key is found exactly when the object has a member of that name, and the value found is the value of such a member. |
| Json.GetLastWins | udn_crawler.py:60 | A key given more than once in an object reads as its last value, wherever that copy stands and whatever members of other names follow it, as decoded JSON does. |
| Url.PyUrljoin | udn_crawler.py:74 | `urljoin` with base `https://udn.com`: resolves exactly the modelled link forms, and the result is absolute. A relative link lands on `udn.com`. The empty link gives `https://udn.com` itself. An absolute link is returned as written. |
| Url.PyUrljoinTarget | udn_crawler.py:74 | What a joined link denotes: the empty link gives the https origin on `udn.com` with an empty path. A root-relative path `p` gives the https URL on `udn.com` whose path is `p`. An absolute link denotes exactly what it denoted before. |
| Url.JsUrl | deno/udn_postprocess.ts:44 | `new URL(link, "https://udn.com")`: resolves the same link forms as `urljoin`, and the result is absolute with a non-empty path. A relative link lands on `udn.com`. The empty link gives `https://udn.com/`. |
| Url.JsUrlTarget | deno/udn_postprocess.ts:44 | What a resolved link denotes: the empty link gives the https origin on `udn.com` with path `/`. A root-relative path `p` gives the https URL on `udn.com` whose path is `p`. An absolute link keeps its scheme, host and path, and an empty path becomes `/`. |
| Url.PyUrljoinIdempotent | udn_crawler.py:74 | Joining an already joined link gives it back unchanged. |
| Url.JsUrlIdempotent | deno/udn_postprocess.ts:44 | Resolving an already resolved link gives it back unchanged. |
| Url.ResolversDifferOnlyBySlash | deno/udn_postprocess.ts:44 | On every modelled link the two resolvers agree, except that where Python's result has an empty path JavaScript's adds `/`. |
| Url.Classify | udn_crawler.py:74 | A link is recognised only as a well-formed form (empty, a plain root-relative path, or `http(s)://host[path]`) that renders back to exactly that link. |
| Url.ClassifyRender | deno/udn_postprocess.ts:44 | Every well-formed link form is recognised as itself, so recognition and rendering are inverse on the modelled forms. |
| Url.StoryLink | udn_crawler.py:74 | `/story/123` resolves to `https://udn.com/story/123` in both runtimes. |
| Url.EmptyLink | deno/udn_postprocess.ts:44 | The empty link resolves to `https://udn.com` in Python and `https://udn.com/` in JavaScript. |
| PyNormalize.StrippedText | udn_crawler.py:73 | `(article.get(key) or "").strip()` raises exactly when the member is truthy and not a string; otherwise it is the stripped text, "" when missing or falsy. |
| PyNormalize.JoinedLink | udn_crawler.py:60 | Joining succeeds exactly when `titleLink` is a string or falsy and its text is a modelled link. The link is then the non-empty `urljoin` of that text. A truthy non-string `titleLink` raises the `TypeError`. |
| PyNormalize.Candidates | udn_crawler.py:72-78 | The record before empty values go: the five output keys in order, holding the stripped title, the resolved (non-empty) link, the stripped paragraph, the chosen time value and the `url` member or `None`. A truthy non-string title raises `AttributeError` first; after an acceptable title, a truthy non-string `titleLink` raises `TypeError`; after an acceptable title and resolvable link, a truthy non-string `paragraph` raises `AttributeError`. |
| PyNormalize.DropFalsy | udn_crawler.py:80 | Keeps exactly the truthy members, in their original order. |
| PyNormalize.NormalizeArticle | udn_crawler.py:58-80 | A non-dict entry raises. A dict entry succeeds exactly when it is accepted: `title`, `titleLink` and `paragraph` are each a string or falsy, and the link is one the resolver models. On success the result has no falsy value, its keys appear in the order `title, link, summary, time, image`, and it always has `link`. On failure the error is the one raised while building the record. |
| PyNormalize.CandidatesAccepted | udn_crawler.py:72-75 | Building the record succeeds exactly on accepted entries. |
| PyNormalize.GetDropFalsy | udn_crawler.py:80 | After falsy members are dropped, a key holds its value exactly when that value is truthy, and otherwise it is absent. |
| PyNormalize.NormalizedMember | udn_crawler.py:72-80 | Each output key holds its candidate value exactly when that value is truthy. |
| PyNormalize.TitleStripped | udn_crawler.py:73 | `title` is the stripped title text, absent when it strips to "" or is missing or falsy. |
| PyNormalize.SummaryStripped | udn_crawler.py:75 | `summary` is the stripped `paragraph` text, absent when that is empty. |
| PyNormalize.LinkAlwaysResolved | udn_crawler.py:74 | `link` is always present and is the `urljoin` of the `titleLink` text (or of "" when it is missing or falsy). |
| PyNormalize.TimeValue | udn_crawler.py:61-70 | The time value is truthy or "". For a time object a truthy value is the `date`, `time` or `datetime` member. Otherwise a truthy value is the `time` member itself. |
| PyNormalize.StripIfString | udn_crawler.py:76 | A string is stripped: the result is a string with no whitespace at either end, and what was cut off on either side of it is whitespace only. Anything else is left unchanged. |
| PyNormalize.Or | udn_crawler.py:60-77 | `x or fallback` on a `dict.get` result: a missing key (`None`) or a falsy value gives the fallback, a truthy value is kept. |
| PyNormalize.Record | udn_crawler.py:72-78 | The dict display holds the five output keys in order, each with the value given for it. |
| PyNormalize.TimeChoice | udn_crawler.py:61-70 | From a time object: `date`, else `time`, else `datetime`, each skipped when falsy, else "". From anything else: the member itself, or "" when it is falsy. |
| PyNormalize.TimeMember | udn_crawler.py:76 | `time` is the chosen time value, stripped when it is a string, and present only when that is truthy. |
| PyNormalize.TimeFromObject | udn_crawler.py:62-68 | For a time object, `time` is the stripped first truthy of `date`, `time`, `datetime`, and absent when none is truthy. |
| PyNormalize.ObjectTime | udn_crawler.py:62-68 | The same choice, stated for the time object alone. |
| PyNormalize.TimeFromOther | udn_crawler.py:69-70 | A plain string `time` is stripped and kept when non-empty, another truthy value is kept as it is, and a falsy one gives no time. |
| PyNormalize.OtherTime | udn_crawler.py:70 | The same as `TimeFromOther`, stated for the time member alone. |
| PyNormalize.ImageWhenTruthy | udn_crawler.py:77 | `image` is the `url` member itself, of any type, when it is truthy, and absent otherwise. |
| PyNormalize.TruthyNonStringTitleRaises | udn_crawler.py:73 | A truthy non-string title raises an `AttributeError` for `title`. |
| PyNormalize.TruthyNonStringLinkRaises | udn_crawler.py:72-74 | With an acceptable title, a truthy non-string `titleLink` makes `urljoin` raise `TypeError`. |
| PyNormalize.TruthyNonStringParagraphRaises | udn_crawler.py:72-75 | With an acceptable title and link, a truthy non-string `paragraph` raises an `AttributeError` for `paragraph`. |
| PyNormalize.RenormalizingLosesSummary | udn_crawler.py:72-80 | For an accepted entry whose stripped `paragraph` is non-empty, normalizing the result a second time does not give the result back. |
| Crawler.Iterate | udn_crawler.py:101 | `for item in` visits list items, the characters of a string or the keys of a dict; null, booleans and numbers raise. |
| Crawler.DictKeys | udn_crawler.py:101 | Iterating a decoded dict visits every member name of the object exactly once, in the order of its first occurrence in the JSON text. |
| Crawler.RepeatedNameVisitedOnce | udn_crawler.py:101 | `{"a": 1, "a": 2}` yields the single item `"a"`. |
| Seqs.Dedup | udn_crawler.py:101 | Each distinct element once, none repeated, ordered by first occurrence. |
| Crawler.PageRequest | udn_crawler.py:46-48 | The request for a page: the fixed endpoint and User-Agent, a `page` value that reads back as the page, the crawl's ids and news type. |
| Crawler.EndFlag | udn_crawler.py:104 | A page ends the crawl exactly when its payload has an `end` member with a truthy value. |
| Crawler.IsRuntimeError | udn_crawler.py:52-55 | `main` catches exactly the fetch failures `fetch_page` turns into `RuntimeError`: every one except a failure once the request was sent. |
| Crawler.NormalizeFrom | udn_crawler.py:101-102 | Every item is normalized in order, and the first item that raises ends the page with its index. |
| Crawler.PageArticles | udn_crawler.py:101-102 | A non-dict payload raises, a missing `lists` contributes nothing, and otherwise the iterated items are normalized in order. |
| Crawler.Process | udn_crawler.py:95-105 | A page raises exactly when its fetch fails or its items cannot be normalized. Otherwise it yields its articles and whether `end` is truthy. |
| Crawler.Loop | udn_crawler.py:94-108 | The loop from page `lo` fetches nothing exactly when no page is left, and otherwise fetches page `lo` first. |
| Crawler.LastPage | udn_crawler.py:94-105 | The loop from `lo` ends on the first page that raises or has `end`, or on the last configured page. |
| Crawler.PagesFetched | udn_crawler.py:94-105 | The number of pages fetched: 0 when `pages <= 0`, otherwise between 1 and `pages`; no earlier page halts the crawl, and when fewer than `pages` are fetched the last one halts it. |
| Crawler.LoopTrace | udn_crawler.py:94-108 | The loop's trace is one fetch per page up to the page it ends on, in increasing order, with sleeps between fetches when the delay is positive. |
| Crawler.LoopResult | udn_crawler.py:92-110 | The loop returns the exception of the page it ends on, if that page raised, and otherwise every fetched page's articles concatenated in order. |
| Crawler.LoopLastPage | udn_crawler.py:104-110 | A loop that ends on its first page fetches only that page and returns only that page's outcome. |
| Crawler.CrawlCharacterized | udn_crawler.py:92-110 | The trace is the schedule of pages 0 to n-1, where n is `PagesFetched`. The result is empty when n is 0, and otherwise the outcome of pages 0 to n-1. |
| Crawler.PagesFetchedAtFirstHalt | udn_crawler.py:104-105 | When page k is the first to halt the crawl and k < `pages`, exactly k + 1 pages are fetched. |
| Crawler.FetchesIncrease | udn_crawler.py:94-100 | Of any two fetches in a crawl, the later one is for a higher page. |
| Crawler.NoRequestSentTwice | udn_crawler.py:46-48 | No two fetches of one crawl send the same request. |
| Crawler.SleepsOnlyBetweenFetches | udn_crawler.py:107-108 | A trace starts and ends with a fetch. Every sleep has a fetch on both sides and needs a positive delay. With a delay of 0 or less there is no sleep. |
| Crawler.RunsAllPages | udn_crawler.py:94-110 | When no page halts the crawl, all `pages` pages are fetched and all their articles are returned. |
| Crawler.EndStopsCrawl | udn_crawler.py:104-105 | An `end` page k stops the crawl: pages 0 to k are fetched, the last event is the fetch of k (no sleep after it), and the articles of pages 0 to k are returned. |
| Crawler.FirstErrorAborts | udn_crawler.py:94-100 | The first page that raises is the last one fetched, and its exception is the result. |
| Crawler.PageSteps | udn_crawler.py:95-102 | A failed fetch raises on its page. A payload without `lists` contributes nothing. A non-dict payload raises. |
| Crawler.CrawlBreakingNews | udn_crawler.py:83-110 | With `pages <= 0` nothing is fetched and nothing returned; otherwise page 0 is fetched first. |
| Crawler.CrawlBreakingNewsCharacterized | udn_crawler.py:83-110 | `crawl_breaking_news` with `normalize_article` has the trace and the result of `CrawlCharacterized`. |
| Crawler.Main | udn_crawler.py:154-170 | `pages < 1` exits with 1 before any fetch. A caught `RuntimeError` exits with 1 and writes nothing. A success exits with 0 and writes the crawl's articles. Any other exception escapes, except that a crawl stopped by a link outside the resolver's forms ends as `Unmodelled` with that link. |
| Seqs.Filter | deno/udn_postprocess.ts:64-68 | `filter` keeps exactly the elements that pass: each passing value occurs in the result as often as in the input, and a failing value not at all. |
| Seqs.FilterIsSubsequence | deno/udn_postprocess.ts:68 | `filter` keeps the original relative order. |
| JsPostprocess.TimeValue | deno/udn_postprocess.ts:29-38 | For a truthy object or array the time value is never null or undefined, and it is its `date`, `time` or `datetime` property or "". Anything else is taken unchanged. |
| JsPostprocess.Prop | deno/udn_postprocess.ts:20-23 | Property access is `undefined` on a non-object or a missing name, and otherwise a member of that name. |
| JsPostprocess.StringProp | deno/udn_postprocess.ts:20-23 | `typeof p === "string" ? p : ""`: the string property's text, else "". |
| JsPostprocess.TrimIfString | deno/udn_postprocess.ts:40 | A string is trimmed: no whitespace at either end, and only whitespace cut off on either side. Anything else is kept unchanged. |
| JsPostprocess.IfTruthy | deno/udn_postprocess.ts:50-52 | A member is set exactly when its value is truthy, and then holds that value. |
| JsPostprocess.Record | deno/udn_postprocess.ts:42-55 | The object literal: `title` and `link` in order, then `summary`, `time` and `image`; `summary` and `image` are set only when non-empty. |
| JsPostprocess.HasTitleAndLink | deno/udn_postprocess.ts:68 | `item.title && item.link`: both members are present and truthy. |
| JsPostprocess.Candidates | deno/udn_postprocess.ts:19-55 | The five members in assignment order. `title` is the trimmed title and `link` is the resolved link. `summary` is set exactly when the trimmed `paragraph` is non-empty. `time` is unset or truthy. `image` is set exactly when `url` is a non-empty string, and is then `url`. |
| JsPostprocess.Coalesce | deno/udn_postprocess.ts:33-36 | `a ?? b` is `a` unless `a` is null or undefined, and then it is `b`. |
| JsPostprocess.Compact | deno/udn_postprocess.ts:42-55 | Exactly the set members are kept, and their keys keep the order in which they are assigned. |
| JsPostprocess.GetCompact | deno/udn_postprocess.ts:42-55 | Looking a key up in the built object finds its candidate value, or nothing when the member was not set. |
| JsPostprocess.NormalizeArticle | deno/udn_postprocess.ts:19-58 | It succeeds exactly when the article is accepted, meaning its link is one the resolver models. Otherwise it fails naming that link. On success it is the built object of the set members, and its keys appear in the order `title, link, summary, time, image`. |
| JsPostprocess.JsMember | deno/udn_postprocess.ts:42-55 | Each output key holds exactly its candidate member. |
| JsPostprocess.TitleAndLinkSet | deno/udn_postprocess.ts:20-45 | `title` is always set, to the trimmed title or "" for a non-string. `link` is always set, to the resolved `titleLink` or the resolved "" for a non-string. |
| JsPostprocess.SummaryWhenNonEmpty | deno/udn_postprocess.ts:22-49 | `summary` is the trimmed `paragraph`, set only when non-empty; a non-string paragraph reads as "". |
| JsPostprocess.ImageOnlyForNonEmptyString | deno/udn_postprocess.ts:24-55 | `image` is set exactly when `url` is a non-empty string, and is then that string. |
| JsPostprocess.TimeMember | deno/udn_postprocess.ts:29-52 | `time` is the trimmed time value, set only when truthy. |
| JsPostprocess.TimeFromObject | deno/udn_postprocess.ts:32-52 | For a time object, `time` is the first of `date`, `time`, `datetime` that is not null or missing, trimmed, and set only when truthy. An empty `date` does not fall through. |
| JsPostprocess.ObjectTime | deno/udn_postprocess.ts:32-40 | The same choice of time value, stated for any object or array alone. |
| JsPostprocess.KeptIffTitled | deno/udn_postprocess.ts:42-68 | A normalized article passes the last filter exactly when its trimmed title is non-empty. |
| JsPostprocess.MapAll | deno/udn_postprocess.ts:67 | `map` normalizes every entry, one output per entry in order; it throws when and only when some entry throws. |
| JsPostprocess.Pipeline | deno/udn_postprocess.ts:63-68 | Every output item has a truthy `title` and `link`. |
| JsPostprocess.Lists | deno/udn_postprocess.ts:61 | A null payload throws. A non-empty result is exactly the `lists` array. |
| JsPostprocess.Postprocess | deno/udn_postprocess.ts:60-68 | A null payload throws, and every output item has a truthy `title` and `link`. |
| JsPostprocess.PipelineKeepsOrder | deno/udn_postprocess.ts:63-68 | The output is a subsequence of the mapped object entries. |
| JsPostprocess.PipelineComplete | deno/udn_postprocess.ts:63-68 | Every object entry whose normalized form has a title and a link is in the output. |
| JsPostprocess.PipelineSound | deno/udn_postprocess.ts:63-68 | Every output item is the normalized form of some object entry, and has a title and a link. |
| JsPostprocess.PipelineFails | deno/udn_postprocess.ts:63-67 | The pipeline throws exactly when normalizing some object entry throws. |
| JsPostprocess.NonArrayListsGiveNothing | deno/udn_postprocess.ts:61 | When `payload.lists` is not an array, the output is empty. |
| JsPostprocess.PostprocessSelects | deno/udn_postprocess.ts:61-68 | When every object entry of `lists` is accepted, the script succeeds, and each object entry with a non-empty trimmed title is in the output in normalized form. |
| Runtimes.PythonSkipsEmptyDate | udn_crawler.py:63-68 | In Python an empty `date` falls through to a non-empty `time` string, which is stripped and kept. |
| Runtimes.JsStopsAtEmptyDate | deno/udn_postprocess.ts:33-36 | In JavaScript an empty `date` is taken and leaves `time` unset. |
| Runtimes.EmptyDateFallsThroughOnlyInPython | deno/udn_postprocess.ts:33-52 | For the same entry, with `date` empty and `time` a non-empty string, Python keeps the stripped `time` and JavaScript sets no time. |
| Runtimes.MissingLinkDiffersBySlash | deno/udn_postprocess.ts:21-44 | Without `titleLink`, Python links to `https://udn.com` and JavaScript to `https://udn.com/`. |
| Runtimes.StoryLinkAgrees | udn_crawler.py:74 | A `/story/123` link becomes `https://udn.com/story/123` in both normalizers. |

## Left out

- The HTTP layer is left out: `urlopen`, its 10-second timeout, the status check, `HTTPError`/`URLError` and `json.load` (udn_crawler.py:42-55). Each page is an abstract `PageOutcome`, and the server is assumed to answer each page number the same way throughout one crawl. A timeout while connecting or sending reaches the crawl as a `URLError` (`Unreachable`). Any failure once the request is sent counts as `ResponseUnreadable` and escapes `main`: a `TimeoutError` while waiting for the status line or reading the body, or a body that is not JSON.
- Real sleeping and the float delay are left out. A sleep is a `Sleep(delay)` trace event, and `delay` is a `real`, so float rounding is not modelled.
- Command-line parsing, output writing and `BrokenPipeError` handling are left out (udn_crawler.py:113-151, 172-184), because they are I/O. So are `readJSON`, `writeJSON`, `ensureDir` and `Deno.args` (deno/udn_postprocess.ts:1-17, 60, 70-77). `Crawler.Main` starts from the parsed options and returns the articles to be written.
- Error messages are left out (the `RuntimeError` text, stderr lines). Only the kind of error and the page it happened on are kept.
- Numbers in JSON are integers only. Floats, which need float truthiness, are not modelled.
- Percent-encoding of the query string is left out. The query is an unencoded key/value list.
- Url.PyUrljoin: resolves only the empty link, a plain root-relative path, and an absolute `http(s)://host[/path]` link with a lower-case host. A path may not contain `;`, `%`, `?`, `#` or dot segments, since `urljoin` drops an empty `;` parameter part and WHATWG rewrites the others. Any other link gives `None`, which the normalizers report as `LinkNotModelled`. Full RFC 3986 section 5.2 resolution is not modelled.
- Url.JsUrl: resolves the same three forms only. The rest of WHATWG URL parsing is not modelled: host canonicalisation, dot segments, percent-encoding, and schemes other than http(s).
- JsPostprocess.MapAll: says that the thrown error comes from some failing entry, not that it comes from the first one.
- JsPostprocess.Lists: states the array case only for a non-empty result. The empty and non-array cases are covered by `JsPostprocess.NonArrayListsGiveNothing`.
- Crawler.Loop: its own contract gives only the shape of the first step. The full trace and result are in `Crawler.LoopTrace` and `Crawler.LoopResult`.
- Crawler.Main: when the crawl meets a link the resolver does not model, the result is `Unmodelled` and names the link. The modelled crawl ends at that page, so the trace is then only a prefix of what the program does: the program resolves the link and goes on. Its exit code there is not stated, because that link's resolution is outside the model.

=== FILE: crawler.dfy ===
/**
 * `crawl_breaking_news` and the exit-code logic of `main`. The network is
 * replaced by `answer`, the server's answer to each page number: either a
 * decoded payload or the reason the fetch failed. Sleeping becomes a trace
 * event, so the result is the fetch/sleep trace plus the articles.
 *
 * The loop itself (`Loop`) is stated over what each page yields (`Step`),
 * and `Process` says how a page's answer becomes a step.
 */
module Crawler {
  import opened Wrappers
  import opened Json
  import Request
  import PyNormalize
  import Seqs
  import Decimal

  /** The command-line options the crawl reads. */
  datatype Config = Config(pages: int, delay: real, categoryId: int, channelId: int, newsType: string)

  /** Why a fetch produced no payload. */
  datatype FetchFailure =
    | HttpStatus(code: int) // a status other than 200, or an `HTTPError`
    | Unreachable           // a `URLError`
    | ResponseUnreadable    // any other failure once the request is sent: no status line in time, a body read that times out, a body that is not JSON

  /** What the server does for one page. */
  datatype PageOutcome = Payload(body: Json) | Failed(why: FetchFailure)

  /**
   * One observable step of the crawl. A fetch of page `p` sends
   * `PageRequest(cfg, p)`; distinct pages send distinct requests
   * (`Request.PagesAreDistinguished`), so the page number names the request.
   */
  datatype Event = Fetch(page: nat) | Sleep(seconds: real)

  /** Why a fetched page could not be processed. */
  datatype PageError =
    | PayloadNotADict                                   // `payload.get` on a non-dict
    | NotIterable                                       // `for item in` a null, bool or number
    | BadArticle(index: nat, error: PyNormalize.PyError) // the first entry the normalizer rejects

  /** The error that ends a crawl early, with the page it happened on. */
  datatype CrawlError = FetchFailed(page: nat, why: FetchFailure) | Raised(page: nat, error: PageError)

  /** What a crawl did and what it returned (or raised). */
  datatype Crawl = Crawl(trace: seq<Event>, result: Result<seq<Fields>, CrawlError>)

  /** What one page yields to the loop: an exception, or its articles and whether it is the last page. */
  datatype Step = Raise(error: CrawlError) | Articles(items: seq<Fields>, end: bool)

  /**
   * What the loop applies to each item of `lists`. Page processing is
   * stated for any such function; `crawl_breaking_news` uses
   * `normalize_article`.
   */
  type Normalizer = Json -> Result<Fields, PyNormalize.PyError>

  /** The request `fetch_page` sends for one page. */
  function PageRequest(cfg: Config, page: int): (r: Request.Request)
    ensures r.url == Request.BaseUrl && |r.query| == 4 && r.headers == [("User-Agent", Request.DefaultUserAgent)]
    ensures r.query[0].0 == "page" && Decimal.ParseInt(r.query[0].1) == Some(page)
    ensures r.query[1].0 == "id" && Decimal.ParseInt(r.query[1].1) == Some(cfg.categoryId)
    ensures r.query[2].0 == "channelId" && Decimal.ParseInt(r.query[2].1) == Some(cfg.channelId)
    ensures r.query[3] == ("type", cfg.newsType)
  {
    Request.BuildRequest(page, cfg.categoryId, cfg.channelId, cfg.newsType)
  }

  /**
   * The items a Python `for` loop visits: list items, the characters of a
   * string, the keys of a dict. A dict holds a name repeated in the JSON
   * text once, at the place of its first occurrence.
   */
  function Iterate(v: Json): (r: Result<seq<Json>, PageError>)
    ensures r.Failure? <==> v.JNull? || v.JBool? || v.JInt?
    ensures r.Failure? ==> r.error == NotIterable
    ensures v.JArray? ==> r == Success(v.items)
    ensures v.JString? ==> r.Success? && |r.value| == |v.s| && forall i :: 0 <= i < |v.s| ==> r.value[i] == JString([v.s[i]])
    ensures v.JObject? ==> r == Success(DictKeys(v.fields))
  {
    match v
    case JArray(items) => Success(items)
    case JString(s) => Success(seq(|s|, i requires 0 <= i < |s| => JString([s[i]])))
    case JObject(fields) => Success(DictKeys(fields))
    case _ => Failure(NotIterable)
  }

  /**
   * Iterating the dict decoded from an object: every member name once, in
   * the order of its first occurrence.
   */
  function DictKeys(fields: Fields): (r: seq<Json>)
    ensures forall i :: 0 <= i < |r| ==> r[i].JString?
    ensures forall x :: JString(x) in r <==> x in Keys(fields)
    ensures forall i, j :: 0 <= i < j < |r| ==> r[i] != r[j]
    ensures forall i, j :: 0 <= i < j < |r| ==>
      Seqs.FirstIndex(Keys(fields), r[i].s) < Seqs.FirstIndex(Keys(fields), r[j].s)
  {
    var names := Seqs.Dedup(Keys(fields));
    var r := seq(|names|, i requires 0 <= i < |names| => JString(names[i]));
    assert forall i :: 0 <= i < |r| ==> r[i].s == names[i];
    forall x | JString(x) in r
      ensures x in names
    {
      var i :| 0 <= i < |r| && r[i] == JString(x);
    }
    r
  }

  /** `for item in {"a": 1, "a": 2}` visits `"a"` once. */
  lemma RepeatedNameVisitedOnce()
    ensures Iterate(JObject([("a", JInt(1)), ("a", JInt(2))])) == Success([JString("a")])
  {
    var fields := [("a", JInt(1)), ("a", JInt(2))];
    var r := DictKeys(fields);
    assert Keys(fields) == ["a", "a"];
    assert JString("a") in r;
    forall i | 0 <= i < |r|
      ensures r[i] == JString("a")
    {
      assert JString(r[i].s) in r;
    }
    assert |r| == 1 && r[0] == JString("a");
    assert r == [JString("a")];
  }

  /**
   * Normalize `items[i..]` in order; the first entry that raises ends the
   * loop and its index is reported.
   */
  function NormalizeFrom(norm: Normalizer, items: seq<Json>, i: nat): (r: Result<seq<Fields>, PageError>)
    requires i <= |items|
    ensures r.Success? <==> forall j :: i <= j < |items| ==> norm(items[j]).Success?
    ensures r.Success? ==> |r.value| == |items| - i
    ensures r.Success? ==> forall j :: 0 <= j < |r.value| ==> norm(items[i + j]) == Success(r.value[j])
    ensures r.Failure? ==> r.error.BadArticle? && i <= r.error.index < |items|
    ensures r.Failure? ==> norm(items[r.error.index]) == Failure(r.error.error)
    ensures r.Failure? ==> forall j :: i <= j < r.error.index ==> norm(items[j]).Success?
    decreases |items| - i
  {
    if i == |items| then Success([])
    else
      match norm(items[i])
      case Failure(e) => Failure(BadArticle(i, e))
      case Success(a) =>
        var rest :- NormalizeFrom(norm, items, i + 1);
        Success([a] + rest)
  }

  /**
   * The articles of one payload: every item of `lists` normalized, nothing
   * when `lists` is missing, and an error when the payload is not a dict
   * or `lists` cannot be iterated.
   */
  function PageArticles(norm: Normalizer, body: Json): (r: Result<seq<Fields>, PageError>)
    ensures !body.JObject? ==> r == Failure(PayloadNotADict)
    ensures body.JObject? && Get(body.fields, "lists").None? ==> r == Success([])
    ensures body.JObject? && Get(body.fields, "lists").Some? ==>
      r == (match Iterate(Get(body.fields, "lists").value)
            case Failure(e) => Failure(e)
            case Success(items) => NormalizeFrom(norm, items, 0))
  {
    if !body.JObject? then Failure(PayloadNotADict)
    else
      match Get(body.fields, "lists")
      case None => Success([])
      case Some(lists) =>
        var items :- Iterate(lists);
        NormalizeFrom(norm, items, 0)
  }

  /** `payload.get("end")` is truthy. */
  predicate EndFlag(body: Json): (b: bool)
    ensures b <==> body.JObject? && "end" in Keys(body.fields) && PyTruthy(Get(body.fields, "end").value)
  {
    body.JObject? && PyNormalize.Given(Get(body.fields, "end"))
  }

  /**
   * The body of the loop for one page: the fetch either fails or yields a
   * payload, whose articles are collected before `end` is looked at.
   */
  function Process(norm: Normalizer, o: PageOutcome, page: nat): (s: Step)
    ensures s.Raise? ==> s.error.page == page
    ensures s.Raise? <==> o.Failed? || PageArticles(norm, o.body).Failure?
    ensures s.Articles? ==> s.items == PageArticles(norm, o.body).value && (s.end <==> EndFlag(o.body))
  {
    match o
    case Failed(why) => Raise(FetchFailed(page, why))
    case Payload(body) =>
      match PageArticles(norm, body)
      case Failure(e) => Raise(Raised(page, e))
      case Success(items) => Articles(items, EndFlag(body))
  }

  /** A page after which the loop does not go on. */
  predicate Halts(s: Step) {
    s.Raise? || s.end
  }

  /**
   * `for page in range(lo, pages)`: fetch, collect the page's articles,
   * leave on `end`, and sleep only when the delay is positive and another
   * page follows.
   */
  function Loop(cfg: Config, step: nat -> Step, lo: nat): (c: Crawl)
    ensures |c.trace| == 0 <==> cfg.pages <= lo
    ensures cfg.pages <= lo ==> c.result == Success([])
    ensures lo < cfg.pages ==> c.trace[0] == Fetch(lo)
    decreases cfg.pages - lo
  {
    if cfg.pages <= lo then Crawl([], Success([]))
    else
      match step(lo)
      case Raise(err) => Crawl([Fetch(lo)], Failure(err))
      case Articles(items, end) =>
        if end then Crawl([Fetch(lo)], Success(items))
        else
          var pause := if cfg.delay > 0.0 && lo < cfg.pages - 1 then [Sleep(cfg.delay)] else [];
          var rest := Loop(cfg, step, lo + 1);
          Crawl([Fetch(lo)] + pause + rest.trace,
                match rest.result
                case Success(more) => Success(items + more)
                case Failure(err) => Failure(err))
  }

  /** The step of each page when the server answers with `answer`. */
  function Steps(norm: Normalizer, answer: nat -> PageOutcome): nat -> Step {
    (p: nat) => Process(norm, answer(p), p)
  }

  /** `crawl_breaking_news`: the loop from page 0 with `normalize_article` applied to each item. */
  function CrawlBreakingNews(cfg: Config, answer: nat -> PageOutcome): (c: Crawl)
    ensures cfg.pages <= 0 ==> c == Crawl([], Success([]))
    ensures cfg.pages > 0 ==> |c.trace| > 0 && c.trace[0] == Fetch(0)
  {
    Loop(cfg, Steps(PyNormalize.NormalizeArticle, answer), 0)
  }

  /**
   * The page a loop started at `lo` ends on: the first page from `lo` on
   * that halts it, or the last configured page.
   */
  function LastPage(cfg: Config, step: nat -> Step, lo: nat): (e: nat)
    requires lo < cfg.pages
    ensures lo <= e < cfg.pages
    ensures forall p :: lo <= p < e ==> !Halts(step(p))
    ensures e < cfg.pages - 1 ==> Halts(step(e))
    decreases cfg.pages - lo
  {
    if Halts(step(lo)) || lo == cfg.pages - 1 then lo else LastPage(cfg, step, lo + 1)
  }

  /**
   * How many pages the crawl fetches: pages 0 up to and including the
   * first one that halts it, and never more than `pages`.
   */
  function PagesFetched(cfg: Config, step: nat -> Step): (n: nat)
    ensures cfg.pages <= 0 ==> n == 0
    ensures cfg.pages > 0 ==> 1 <= n <= cfg.pages
    ensures forall p :: 0 <= p < n - 1 ==> !Halts(step(p))
    ensures 0 < n < cfg.pages ==> Halts(step(n - 1))
  {
    if cfg.pages <= 0 then 0 else LastPage(cfg, step, 0) + 1
  }

  /**
   * The fetch/sleep trace of pages `lo` to `hi - 1`: one fetch per page in
   * increasing order and, when the delay is positive, one sleep between
   * consecutive fetches and none after the last.
   */
  function Schedule(cfg: Config, lo: nat, hi: nat): seq<Event> {
    if hi <= lo then []
    else if cfg.delay > 0.0 then
      seq(2 * (hi - lo) - 1, k requires 0 <= k < 2 * (hi - lo) - 1 => if k % 2 == 0 then Fetch(lo + k / 2) else Sleep(cfg.delay))
    else
      seq(hi - lo, k requires 0 <= k < hi - lo => Fetch(lo + k))
  }

  /** The articles a step contributes. */
  function Contribution(s: Step): seq<Fields> {
    if s.Articles? then s.items else []
  }

  /** The articles of pages `lo` to `hi - 1`, page after page. */
  function Collected(step: nat -> Step, lo: nat, hi: nat): seq<Fields>
    decreases hi
  {
    if hi <= lo then [] else Collected(step, lo, hi - 1) + Contribution(step(hi - 1))
  }

  /** What a loop over pages `lo` to `e` returns: page `e`'s exception if it raised, else every page's articles. */
  function Outcome(step: nat -> Step, lo: nat, e: nat): Result<seq<Fields>, CrawlError> {
    if step(e).Raise? then Failure(step(e).error) else Success(Collected(step, lo, e + 1))
  }

  /** A schedule is its first fetch, the pause after it, and the schedule of the remaining pages. */
  lemma ScheduleStep(cfg: Config, lo: nat, hi: nat)
    requires lo < hi
    ensures Schedule(cfg, lo, hi) ==
      [Fetch(lo)] + (if cfg.delay > 0.0 && lo + 1 < hi then [Sleep(cfg.delay)] else []) + Schedule(cfg, lo + 1, hi)
  {
    var s := Schedule(cfg, lo, hi);
    var t := Schedule(cfg, lo + 1, hi);
    var pause := if cfg.delay > 0.0 && lo + 1 < hi then [Sleep(cfg.delay)] else [];
    var u := [Fetch(lo)] + pause + t;
    if cfg.delay > 0.0 && lo + 1 < hi {
      assert |s| == |u|;
      forall k | 2 <= k < |s|
        ensures s[k] == u[k]
      {
        assert u[k] == t[k - 2];
        assert (k - 2) % 2 == k % 2 && (k - 2) / 2 == k / 2 - 1;
      }
      assert s[0] == u[0] && s[1] == u[1];
    } else if cfg.delay <= 0.0 {
      assert |s| == |u|;
      forall k | 1 <= k < |s|
        ensures s[k] == u[k]
      {
        assert u[k] == t[k - 1];
      }
    }
  }

  /** Collecting pages `lo` to `hi - 1` is page `lo`'s articles followed by the rest. */
  lemma {:induction false} CollectedFront(step: nat -> Step, lo: nat, hi: nat)
    requires lo < hi
    ensures Collected(step, lo, hi) == Contribution(step(lo)) + Collected(step, lo + 1, hi)
    decreases hi
  {
    var first := Contribution(step(lo));
    var last := Contribution(step(hi - 1));
    if lo + 1 < hi {
      CollectedFront(step, lo, hi - 1);
      var middle := Collected(step, lo + 1, hi - 1);
      assert Collected(step, lo, hi) == first + middle + last;
      assert Collected(step, lo + 1, hi) == middle + last;
    } else {
      assert Collected(step, lo, hi) == [] + first;
      assert Collected(step, lo + 1, hi) == [];
    }
  }

  /**
   * The loop from page `lo` fetches pages `lo` to `e`, where `e` is the
   * first page that halts it (or the last configured one), and sleeps
   * between them when the delay is positive.
   */
  lemma {:induction false} LoopTrace(cfg: Config, step: nat -> Step, lo: nat)
    requires lo < cfg.pages
    ensures Loop(cfg, step, lo).trace == Schedule(cfg, lo, LastPage(cfg, step, lo) + 1)
    decreases cfg.pages - lo
  {
    var e := LastPage(cfg, step, lo);
    ScheduleStep(cfg, lo, e + 1);
    if e == lo {
      LoopLastPage(cfg, step, lo);
    } else {
      var pause := if cfg.delay > 0.0 then [Sleep(cfg.delay)] else [];
      assert Loop(cfg, step, lo).trace == [Fetch(lo)] + pause + Loop(cfg, step, lo + 1).trace;
      assert LastPage(cfg, step, lo + 1) == e;
      LoopTrace(cfg, step, lo + 1);
    }
  }

  /**
   * The loop from page `lo` returns the exception of the page `e` it ends
   * on, if that page raised, and otherwise the articles of pages `lo` to
   * `e` in order.
   */
  lemma {:induction false} LoopResult(cfg: Config, step: nat -> Step, lo: nat)
    requires lo < cfg.pages
    ensures Loop(cfg, step, lo).result == Outcome(step, lo, LastPage(cfg, step, lo))
    decreases cfg.pages - lo
  {
    var e := LastPage(cfg, step, lo);
    if e == lo {
      LoopLastPage(cfg, step, lo);
    } else {
      var items := step(lo).items;
      var rest := Loop(cfg, step, lo + 1);
      assert LastPage(cfg, step, lo + 1) == e;
      LoopResult(cfg, step, lo + 1);
      if step(e).Raise? {
        assert Loop(cfg, step, lo).result == rest.result;
      } else {
        var more := Collected(step, lo + 1, e + 1);
        assert Loop(cfg, step, lo).result == Success(items + more);
        CollectedFront(step, lo, e + 1);
      }
    }
  }

  /** When page `lo` is the last one fetched, the loop makes that one fetch and returns its outcome. */
  lemma LoopLastPage(cfg: Config, step: nat -> Step, lo: nat)
    requires lo < cfg.pages && LastPage(cfg, step, lo) == lo
    ensures Loop(cfg, step, lo).trace == [Fetch(lo)]
    ensures Loop(cfg, step, lo).result == Outcome(step, lo, lo)
  {
    assert Collected(step, lo, lo + 1) == [] + Contribution(step(lo));
    assert [] + Contribution(step(lo)) == Contribution(step(lo));
    if step(lo).Articles? && !step(lo).end {
      assert lo == cfg.pages - 1;
      assert Loop(cfg, step, lo + 1) == Crawl([], Success([]));
      assert step(lo).items + [] == step(lo).items;
    }
  }

  /**
   * The crawl fetches pages 0 to n - 1 in increasing order, n being
   * `PagesFetched`, sleeps only between fetches, and returns the exception
   * of page n - 1 if it raised and otherwise the in-order concatenation of
   * every fetched page's articles.
   */
  lemma CrawlCharacterized(cfg: Config, step: nat -> Step)
    ensures Loop(cfg, step, 0).trace == Schedule(cfg, 0, PagesFetched(cfg, step))
    ensures PagesFetched(cfg, step) == 0 ==> Loop(cfg, step, 0).result == Success([])
    ensures PagesFetched(cfg, step) > 0 ==> Loop(cfg, step, 0).result == Outcome(step, 0, PagesFetched(cfg, step) - 1)
  {
    if cfg.pages > 0 {
      LoopTrace(cfg, step, 0);
      LoopResult(cfg, step, 0);
    }
  }

  /** The crawl fetches exactly up to the first page that halts it, when one comes before `pages` runs out. */
  lemma PagesFetchedAtFirstHalt(cfg: Config, step: nat -> Step, k: nat)
    requires k < cfg.pages && Halts(step(k))
    requires forall p :: 0 <= p < k ==> !Halts(step(p))
    ensures PagesFetched(cfg, step) == k + 1
  {
  }

  /**
   * Sleeps happen only between two fetches: never first, never last, and
   * never at all unless the delay is positive.
   */
  lemma SleepsOnlyBetweenFetches(cfg: Config, step: nat -> Step)
    ensures var t := Loop(cfg, step, 0).trace;
      && (|t| > 0 ==> t[0].Fetch? && t[|t| - 1].Fetch?)
      && (forall k :: 0 <= k < |t| && t[k].Sleep? ==> cfg.delay > 0.0 && 0 < k < |t| - 1 && t[k - 1].Fetch? && t[k + 1].Fetch?)
      && (cfg.delay <= 0.0 ==> forall k :: 0 <= k < |t| ==> t[k].Fetch?)
  {
    CrawlCharacterized(cfg, step);
    var n := PagesFetched(cfg, step);
    var t := Loop(cfg, step, 0).trace;
    if n > 0 && cfg.delay > 0.0 {
      assert |t| == 2 * n - 1;
      assert (2 * n - 2) % 2 == 0;
      forall k | 0 <= k < |t| && t[k].Sleep?
        ensures 0 < k < |t| - 1 && t[k - 1].Fetch? && t[k + 1].Fetch?
      {
        assert k % 2 == 1;
        assert (k - 1) % 2 == 0 && (k + 1) % 2 == 0;
      }
    }
  }

  /** When no page halts the crawl, all `pages` pages are fetched and every page's articles are returned. */
  lemma RunsAllPages(cfg: Config, step: nat -> Step)
    requires cfg.pages > 0
    requires forall p :: 0 <= p < cfg.pages ==> !Halts(step(p))
    ensures PagesFetched(cfg, step) == cfg.pages
    ensures Loop(cfg, step, 0).trace == Schedule(cfg, 0, cfg.pages)
    ensures Loop(cfg, step, 0).result == Success(Collected(step, 0, cfg.pages))
  {
    CrawlCharacterized(cfg, step);
  }

  /**
   * A page marked `end` is the last one fetched: the crawl stops after
   * pages 0 to k, with no sleep after page k, and returns their articles.
   */
  lemma EndStopsCrawl(cfg: Config, step: nat -> Step, k: nat)
    requires k < cfg.pages && step(k).Articles? && step(k).end
    requires forall p :: 0 <= p < k ==> !Halts(step(p))
    ensures Loop(cfg, step, 0).trace == Schedule(cfg, 0, k + 1)
    ensures Loop(cfg, step, 0).trace[|Loop(cfg, step, 0).trace| - 1] == Fetch(k)
    ensures Loop(cfg, step, 0).result == Success(Collected(step, 0, k + 1))
  {
    PagesFetchedAtFirstHalt(cfg, step, k);
    CrawlCharacterized(cfg, step);
    if cfg.delay > 0.0 {
      assert (2 * (k + 1) - 2) % 2 == 0 && (2 * (k + 1) - 2) / 2 == k;
    }
  }

  /**
   * The first page that raises aborts the crawl: nothing is fetched after
   * it and its exception is the result.
   */
  lemma FirstErrorAborts(cfg: Config, step: nat -> Step, k: nat)
    requires k < cfg.pages && step(k).Raise?
    requires forall p :: 0 <= p < k ==> !Halts(step(p))
    ensures Loop(cfg, step, 0).trace == Schedule(cfg, 0, k + 1)
    ensures Loop(cfg, step, 0).trace[|Loop(cfg, step, 0).trace| - 1] == Fetch(k)
    ensures Loop(cfg, step, 0).result == Failure(step(k).error)
  {
    PagesFetchedAtFirstHalt(cfg, step, k);
    CrawlCharacterized(cfg, step);
    if cfg.delay > 0.0 {
      assert (2 * (k + 1) - 2) % 2 == 0 && (2 * (k + 1) - 2) / 2 == k;
    }
  }

  /** A failed fetch raises on its page, and a payload without `lists` contributes no articles. */
  lemma PageSteps(norm: Normalizer, o: PageOutcome, page: nat)
    ensures o.Failed? ==> Process(norm, o, page) == Raise(FetchFailed(page, o.why))
    ensures o.Payload? && o.body.JObject? && Get(o.body.fields, "lists").None? ==>
      Process(norm, o, page) == Articles([], EndFlag(o.body))
    ensures o.Payload? && !o.body.JObject? ==> Process(norm, o, page) == Raise(Raised(page, PayloadNotADict))
  {
  }

  /** Of two fetches in a trace, the later one names the higher page. */
  predicate PagesIncrease(t: seq<Event>) {
    forall i, j :: 0 <= i < j < |t| && t[i].Fetch? && t[j].Fetch? ==> t[i].page < t[j].page
  }

  /** Pages are fetched in strictly increasing order. */
  lemma {:induction false} FetchesIncrease(cfg: Config, step: nat -> Step)
    ensures PagesIncrease(Loop(cfg, step, 0).trace)
  {
    CrawlCharacterized(cfg, step);
    var n := PagesFetched(cfg, step);
    var t := Loop(cfg, step, 0).trace;
    if n > 0 && cfg.delay > 0.0 {
      forall i, j | 0 <= i < j < |t| && t[i].Fetch? && t[j].Fetch?
        ensures t[i].page < t[j].page
      {
        assert i % 2 == 0 && j % 2 == 0;
        assert t[i].page == i / 2 && t[j].page == j / 2;
      }
    }
  }

  /**
   * No request is sent twice in one crawl: the fetches name increasing
   * pages, and different pages send different requests.
   */
  lemma NoRequestSentTwice(cfg: Config, step: nat -> Step)
    ensures var t := Loop(cfg, step, 0).trace;
      forall i, j :: 0 <= i < j < |t| && t[i].Fetch? && t[j].Fetch? ==>
        PageRequest(cfg, t[i].page) != PageRequest(cfg, t[j].page)
  {
    FetchesIncrease(cfg, step);
    var t := Loop(cfg, step, 0).trace;
    assert PagesIncrease(t);
    forall i, j | 0 <= i < j < |t| && t[i].Fetch? && t[j].Fetch?
      ensures PageRequest(cfg, t[i].page) != PageRequest(cfg, t[j].page)
    {
      assert t[i].page < t[j].page;
      Request.PagesAreDistinguished(t[i].page, t[j].page, cfg.categoryId, cfg.channelId, cfg.newsType);
    }
  }

  /** `crawl_breaking_news` is the loop over the steps of the server's answers, as characterized above. */
  lemma CrawlBreakingNewsCharacterized(cfg: Config, answer: nat -> PageOutcome)
    ensures var step := Steps(PyNormalize.NormalizeArticle, answer);
      CrawlBreakingNews(cfg, answer).trace == Schedule(cfg, 0, PagesFetched(cfg, step))
    ensures var step := Steps(PyNormalize.NormalizeArticle, answer);
      && (PagesFetched(cfg, step) == 0 ==> CrawlBreakingNews(cfg, answer).result == Success([]))
      && (PagesFetched(cfg, step) > 0 ==> CrawlBreakingNews(cfg, answer).result == Outcome(step, 0, PagesFetched(cfg, step) - 1))
  {
    CrawlCharacterized(cfg, Steps(PyNormalize.NormalizeArticle, answer));
  }

  /**
   * How `main` ends: the exit code it returns, an exception it does not
   * catch, or a link the restricted resolver does not model, where the
   * program's own outcome is left open.
   */
  datatype Exit =
    | Exit(code: int, trace: seq<Event>, output: seq<Fields>)
    | Uncaught(trace: seq<Event>, error: CrawlError)
    | Unmodelled(trace: seq<Event>, link: string)

  /**
   * The failures `fetch_page` turns into `RuntimeError`, which `main`
   * catches: a bad status and the `HTTPError`/`URLError` of `urlopen`. A
   * body that cannot be read or decoded raises `JSONDecodeError` or
   * `TimeoutError`, neither of which is a `URLError`, so it escapes.
   */
  predicate IsRuntimeError(e: CrawlError): (b: bool)
    ensures b <==> e.FetchFailed? && !e.why.ResponseUnreadable?
  {
    e.FetchFailed? && (e.why.HttpStatus? || e.why.Unreachable?)
  }

  /** The crawl stopped at a link the resolver does not model, not at anything the program raises. */
  predicate OutsideModel(e: CrawlError) {
    e.Raised? && e.error.BadArticle? && e.error.error.LinkNotModelled?
  }

  /**
   * `main` after argument parsing: fewer than one page is refused before
   * any fetch; a `RuntimeError` exits with 1; any other exception
   * propagates; otherwise the articles are written out and the exit code
   * is 0. A crawl that reached a link outside the resolver's forms ends in
   * `Unmodelled`, naming the link.
   */
  function Main(cfg: Config, answer: nat -> PageOutcome): (r: Exit)
    ensures cfg.pages < 1 ==> r == Exit(1, [], [])
    ensures cfg.pages >= 1 ==> r.trace == CrawlBreakingNews(cfg, answer).trace
    ensures r.Exit? && r.code == 0 <==> cfg.pages >= 1 && CrawlBreakingNews(cfg, answer).result.Success?
    ensures r.Exit? && r.code == 0 ==> r.output == CrawlBreakingNews(cfg, answer).result.value
    ensures r.Exit? && r.code != 0 ==> r.code == 1 && r.output == []
    ensures r.Uncaught? <==>
      (cfg.pages >= 1 && CrawlBreakingNews(cfg, answer).result.Failure?
       && !IsRuntimeError(CrawlBreakingNews(cfg, answer).result.error) && !OutsideModel(CrawlBreakingNews(cfg, answer).result.error))
    ensures r.Unmodelled? <==> cfg.pages >= 1 && CrawlBreakingNews(cfg, answer).result.Failure? && OutsideModel(CrawlBreakingNews(cfg, answer).result.error)
    ensures r.Unmodelled? ==> r.link == CrawlBreakingNews(cfg, answer).result.error.error.error.link
  {
    if cfg.pages < 1 then Exit(1, [], [])
    else
      var c := CrawlBreakingNews(cfg, answer);
      match c.result
      case Success(articles) => Exit(0, c.trace, articles)
      case Failure(e) =>
        if IsRuntimeError(e) then Exit(1, c.trace, [])
        else if OutsideModel(e) then Unmodelled(c.trace, e.error.error.link)
        else Uncaught(c.trace, e)
  }
}

=== FILE: decimal.dfy ===
/** Python's `str(int)` on integers, and the decimal reading that inverts it. */
module Decimal {
  import opened Wrappers

  predicate IsDigit(c: char) { '0' <= c <= '9' }

  predicate AllDigits(s: string) {
    forall k :: 0 <= k < |s| ==> IsDigit(s[k])
  }

  function DigitChar(d: nat): (c: char)
    requires d < 10
    ensures IsDigit(c) && (c as int) - ('0' as int) == d
  {
    ['0', '1', '2', '3', '4', '5', '6', '7', '8', '9'][d]
  }

  /** Decimal digits of `n`, most significant first, without leading zeros. */
  function FormatNat(n: nat): (s: string)
    ensures |s| > 0 && AllDigits(s)
    ensures |s| > 1 ==> s[0] != '0'
  {
    if n < 10 then [DigitChar(n)] else FormatNat(n / 10) + [DigitChar(n % 10)]
  }

  /** `str(i)`: a `-` sign before the digits of a negative number. */
  function FormatInt(i: int): (s: string)
    ensures |s| > 0
    ensures i >= 0 ==> AllDigits(s) && (|s| > 1 ==> s[0] != '0')
    ensures i < 0 ==> |s| > 1 && s[0] == '-' && AllDigits(s[1..]) && s[1] != '0'
  {
    if i < 0 then "-" + FormatNat(-i) else FormatNat(i)
  }

  /** The value of a string of decimal digits. */
  function ParseNat(s: string): nat
    requires AllDigits(s)
  {
    if |s| == 0 then 0 else ParseNat(s[..|s| - 1]) * 10 + ((s[|s| - 1] as int) - ('0' as int))
  }

  /** Read an optionally signed decimal integer; `None` for anything else. */
  function ParseInt(s: string): (r: Option<int>)
    ensures r.Some? ==> |s| > 0
  {
    if |s| > 1 && s[0] == '-' && AllDigits(s[1..]) then
      var magnitude: int := ParseNat(s[1..]);
      Some(-magnitude)
    else if |s| > 0 && AllDigits(s) then Some(ParseNat(s))
    else None
  }

  lemma {:induction false} ParseFormatNat(n: nat)
    ensures ParseNat(FormatNat(n)) == n
  {
    if n >= 10 {
      var s := FormatNat(n);
      assert s[..|s| - 1] == FormatNat(n / 10);
      ParseFormatNat(n / 10);
    }
  }

  /** Reading back what `str` wrote gives the original integer. */
  lemma ParseFormatInt(i: int)
    ensures ParseInt(FormatInt(i)) == Some(i)
  {
    var s := FormatInt(i);
    if i < 0 {
      assert s[1..] == FormatNat(-i);
      assert s[0] == '-';
      ParseFormatNat(-i);
    } else {
      assert IsDigit(s[0]);
      ParseFormatNat(i);
    }
  }
}

=== FILE: json.dfy ===
/** JSON values as both runtimes see them after parsing, with each runtime's notion of truth. */
module Json {
  import opened Wrappers

  datatype Json =
    | JNull
    | JBool(b: bool)
    | JInt(i: int)
    | JString(s: string)
    | JArray(items: seq<Json>)
    | JObject(fields: Fields)

  /** The members of an object, in document order. */
  type Fields = seq<(string, Json)>

  /** The member names of an object, or of any list of named entries, in order. */
  function Keys<V>(fields: seq<(string, V)>): (ks: seq<string>)
    ensures |ks| == |fields|
    ensures forall i :: 0 <= i < |fields| ==> ks[i] == fields[i].0
  {
    if |fields| == 0 then [] else [fields[0].0] + Keys(fields[1..])
  }

  /**
   * Member lookup (`dict.get` in Python, property access in JavaScript).
   * A key repeated in the document resolves to its last occurrence, as
   * both `json.load` and `JSON.parse` keep the last one.
   */
  function Get(fields: Fields, key: string): (r: Option<Json>)
    ensures r.None? <==> key !in Keys(fields)
    ensures r.Some? ==> (key, r.value) in fields
  {
    if |fields| == 0 then None
    else
      var later := Get(fields[1..], key);
      if later.Some? then later
      else if fields[0].0 == key then Some(fields[0].1)
      else None
  }

  /**
   * Of several members with the same name, the last one is the one looked
   * up, wherever it stands and whatever members of other names follow it.
   */
  lemma {:induction false} GetLastWins(front: Fields, key: string, v: Json, rest: Fields)
    requires key !in Keys(rest)
    ensures Get(front + [(key, v)] + rest, key) == Some(v)
    decreases |front|
  {
    var fields := front + [(key, v)] + rest;
    if |front| == 0 {
      assert fields[0] == (key, v) && fields[1..] == rest;
      assert Get(fields[1..], key) == None;
    } else {
      assert fields[1..] == front[1..] + [(key, v)] + rest;
      GetLastWins(front[1..], key, v, rest);
      assert Get(fields[1..], key) == Some(v);
    }
  }

  /**
   * The members of a normalized article, in the order both normalizers
   * build them.
   */
  const OutputKeys: seq<string> := ["title", "link", "summary", "time", "image"]

  /** Python truth value: `None`, `False`, `0`, `""`, `[]` and `{}` are false. */
  predicate PyTruthy(v: Json) {
    match v
    case JNull => false
    case JBool(b) => b
    case JInt(i) => i != 0
    case JString(s) => |s| > 0
    case JArray(items) => |items| > 0
    case JObject(fields) => |fields| > 0
  }

  /** JavaScript truth value: every array and object is true, even an empty one. */
  predicate JsTruthy(v: Json) {
    match v
    case JNull => false
    case JBool(b) => b
    case JInt(i) => i != 0
    case JString(s) => |s| > 0
    case JArray(_) => true
    case JObject(_) => true
  }

  /** The two notions of truth differ exactly on empty arrays and empty objects. */
  lemma TruthinessDiffersOnlyOnEmptyContainers(v: Json)
    ensures PyTruthy(v) != JsTruthy(v) <==> v == JArray([]) || v == JObject([])
  {
  }
}

=== FILE: normalize_py.dfy ===
/** `normalize_article` of the Python crawler: one raw listing entry to a sparse record. */
module PyNormalize {
  import opened Wrappers
  import opened Json
  import opened Text
  import Url
  import Seqs

  /** What `normalize_article` can raise, plus the links this model does not resolve. */
  datatype PyError =
    | NoGetMethod               // AttributeError: the entry is not a dict
    | NoStripMethod(key: string) // AttributeError: `.strip()` on a truthy non-string
    | MixedJoinArgs             // TypeError: `urljoin` given a truthy non-string link
    | LinkNotModelled(link: string)

  /** No key occurs twice. */
  predicate DistinctKeys(fields: Fields) {
    forall i, j :: 0 <= i < j < |fields| ==> fields[i].0 != fields[j].0
  }

  /** Python `v or fallback` where `v` is a `dict.get` result: a missing key reads as `None`. */
  function Or(v: Option<Json>, fallback: Json): (r: Json)
    ensures v.None? ==> r == fallback
    ensures v.Some? && PyTruthy(v.value) ==> r == v.value
    ensures v.Some? && !PyTruthy(v.value) ==> r == fallback
  {
    if v.Some? && PyTruthy(v.value) then v.value else fallback
  }

  /** `(article.get(key) or "").strip()`. */
  function StrippedText(article: Fields, key: string): (r: Result<string, PyError>)
    ensures r.Failure? <==> (var v := Get(article, key); v.Some? && PyTruthy(v.value) && !v.value.JString?)
    ensures r.Failure? ==> r.error == NoStripMethod(key)
    ensures r.Success? ==> r.value == Trim(Python, TextOf(Get(article, key)))
  {
    var v := Get(article, key);
    match Or(v, JString(""))
    case JString(s) => assert s == TextOf(v); Success(Trim(Python, s))
    case _ => Failure(NoStripMethod(key))
  }

  /** The text of a string member, "" for anything else. */
  function TextOf(v: Option<Json>): string {
    if v.Some? && v.value.JString? then v.value.s else ""
  }

  /** A member that `or` keeps but that is not a string: `.strip()` or `urljoin` rejects it. */
  predicate TruthyNonString(v: Option<Json>) {
    v.Some? && PyTruthy(v.value) && !v.value.JString?
  }

  /**
   * The dict entries `normalize_article` accepts: `title`, `titleLink` and
   * `paragraph` are each a string or falsy, and the link is one the
   * resolver models.
   */
  predicate Accepted(article: Fields) {
    && !TruthyNonString(Get(article, "title"))
    && !TruthyNonString(Get(article, "titleLink"))
    && !TruthyNonString(Get(article, "paragraph"))
    && Url.Classify(TextOf(Get(article, "titleLink"))).Some?
  }

  /**
   * The time value before stripping: inside an object the first truthy of
   * `date`, `time`, `datetime`, else ""; otherwise the member itself, or ""
   * when it is falsy.
   */
  function TimeValue(timeField: Option<Json>): (r: Json)
    ensures PyTruthy(r) || r == JString("")
    ensures timeField.Some? && timeField.value.JObject? && PyTruthy(r) ==>
      var f := timeField.value.fields;
      Get(f, "date") == Some(r) || Get(f, "time") == Some(r) || Get(f, "datetime") == Some(r)
    ensures !(timeField.Some? && timeField.value.JObject?) && PyTruthy(r) ==> timeField == Some(r)
  {
    match timeField
    case Some(JObject(f)) => Or(Get(f, "date"), Or(Get(f, "time"), Or(Get(f, "datetime"), JString(""))))
    case _ => Or(timeField, JString(""))
  }

  /** `time_value.strip() if isinstance(time_value, str) else time_value`. */
  function StripIfString(v: Json): (r: Json)
    ensures r.JString? <==> v.JString?
    ensures !v.JString? ==> r == v
    ensures v.JString? ==> Trimmed(Python, r.s) && IsInfix(r.s, v.s)
    ensures v.JString? ==> CutBetweenSpaces(Python, r.s, v.s)
  {
    if v.JString? then TrimCutsOnlySpaces(Python, v.s); JString(Trim(Python, v.s)) else v
  }

  /** `urljoin("https://udn.com", article.get("titleLink") or "")`. */
  function JoinedLink(article: Fields): (r: Result<string, PyError>)
    ensures r.Success? <==> !TruthyNonString(Get(article, "titleLink")) && Url.Classify(TextOf(Get(article, "titleLink"))).Some?
    ensures r.Success? ==> |r.value| > 0
    ensures r.Success? ==> Url.PyUrljoin(TextOf(Get(article, "titleLink"))) == Some(r.value)
    ensures r.Failure? ==> r.error == (var v := Get(article, "titleLink"); if Given(v) && !v.value.JString? then MixedJoinArgs else LinkNotModelled(TextOf(v)))
  {
    match Or(Get(article, "titleLink"), JString(""))
    case JString(s) =>
      (match Url.PyUrljoin(s)
       case Some(u) => Success(u)
       case None => Failure(LinkNotModelled(s)))
    case _ => Failure(MixedJoinArgs)
  }

  /**
   * What the dict display holds for `article`: the five output keys in
   * order (`Record`), with the stripped title, the joined link (never
   * empty), the stripped paragraph, the chosen time value and the `url`
   * member or `None`.
   */
  predicate IsCandidateRecord(article: Fields, r: Fields) {
    && Url.PyUrljoin(TextOf(Get(article, "titleLink"))).Some?
    && var link := Url.PyUrljoin(TextOf(Get(article, "titleLink"))).value;
    && |link| > 0
    && r == Record(Trim(Python, TextOf(Get(article, "title"))), link, Trim(Python, TextOf(Get(article, "paragraph"))),
                   StripIfString(TimeValue(Get(article, "time"))), Or(Get(article, "url"), JNull))
  }

  /**
   * The record before empty values are removed: one entry per output key,
   * evaluated in the order the dict display evaluates them, so the first
   * failing field decides the exception.
   */
  function Candidates(article: Fields): (r: Result<Fields, PyError>)
    ensures r.Success? ==> IsCandidateRecord(article, r.value)
    ensures TruthyNonString(Get(article, "title")) ==> r == Failure(NoStripMethod("title"))
    ensures !TruthyNonString(Get(article, "title")) && TruthyNonString(Get(article, "titleLink")) ==> r == Failure(MixedJoinArgs)
    ensures !TruthyNonString(Get(article, "title")) && !TruthyNonString(Get(article, "titleLink"))
              && Url.Classify(TextOf(Get(article, "titleLink"))).Some? && TruthyNonString(Get(article, "paragraph")) ==>
              r == Failure(NoStripMethod("paragraph"))
  {
    var title := StrippedText(article, "title");
    var link := JoinedLink(article);
    var summary := StrippedText(article, "paragraph");
    if title.Failure? then Failure(title.error)
    else if link.Failure? then Failure(link.error)
    else if summary.Failure? then Failure(summary.error)
    else
      Success(Record(title.value, link.value, summary.value, StripIfString(TimeValue(Get(article, "time"))), Or(Get(article, "url"), JNull)))
  }

  /** Building the record succeeds exactly on the accepted entries. */
  lemma CandidatesAccepted(article: Fields)
    ensures Candidates(article).Success? <==> Accepted(article)
  {
    var title := StrippedText(article, "title");
    var link := JoinedLink(article);
    var summary := StrippedText(article, "paragraph");
    assert title.Success? <==> !TruthyNonString(Get(article, "title"));
    assert summary.Success? <==> !TruthyNonString(Get(article, "paragraph"));
    assert Candidates(article).Success? <==> title.Success? && link.Success? && summary.Success?;
  }

  /** The dict display: the five members in `OutputKeys` order. */
  function Record(title: string, link: string, summary: string, time: Json, image: Json): (r: Fields)
    ensures |r| == 5 && Keys(r) == OutputKeys
    ensures r[0].1 == JString(title) && r[1].1 == JString(link) && r[2].1 == JString(summary)
    ensures r[3].1 == time && r[4].1 == image
  {
    var r := [("title", JString(title)), ("link", JString(link)), ("summary", JString(summary)), ("time", time), ("image", image)];
    assert Keys(r) == OutputKeys by {
      var ks := Keys(r);
      assert |ks| == 5;
      assert ks[0] == "title" && ks[1] == "link" && ks[2] == "summary" && ks[3] == "time" && ks[4] == "image";
    }
    r
  }

  /** Keep the members whose value is truthy (the closing dict comprehension). */
  function DropFalsy(fields: Fields): (r: Fields)
    ensures forall i :: 0 <= i < |r| ==> PyTruthy(r[i].1)
    ensures forall i :: 0 <= i < |fields| && PyTruthy(fields[i].1) ==> fields[i] in r
    ensures forall m :: m in r ==> m in fields
    ensures Seqs.IsSubsequence(Keys(r), Keys(fields))
  {
    if |fields| == 0 then []
    else
      var rest := DropFalsy(fields[1..]);
      assert Keys(fields) == [fields[0].0] + Keys(fields[1..]);
      if PyTruthy(fields[0].1) then
        assert Keys([fields[0]] + rest) == [fields[0].0] + Keys(rest);
        [fields[0]] + rest
      else
        Seqs.SubsequenceCons(Keys(rest), Keys(fields[1..]), fields[0].0);
        rest
  }

  /**
   * `normalize_article`: a non-dict entry raises; otherwise the record has
   * no falsy value, its keys are drawn in order from `OutputKeys`, and the
   * resolved link is always among them.
   */
  function NormalizeArticle(article: Json): (r: Result<Fields, PyError>)
    ensures !article.JObject? ==> r == Failure(NoGetMethod)
    ensures r.Success? ==> forall i :: 0 <= i < |r.value| ==> PyTruthy(r.value[i].1)
    ensures r.Success? ==> Seqs.IsSubsequence(Keys(r.value), OutputKeys)
    ensures r.Success? ==> "link" in Keys(r.value)
    ensures article.JObject? ==> (r.Success? <==> Accepted(article.fields))
    ensures article.JObject? ==> (r.Success? <==> Candidates(article.fields).Success?)
    ensures article.JObject? && r.Failure? ==> r.error == Candidates(article.fields).error
  {
    if !article.JObject? then Failure(NoGetMethod)
    else
      CandidatesAccepted(article.fields);
      match Candidates(article.fields)
      case Failure(e) => Failure(e)
      case Success(fields) =>
        LinkSurvives(fields);
        Success(DropFalsy(fields))
  }

  /** The link of a candidate record is truthy, so dropping falsy members keeps it. */
  lemma LinkSurvives(fields: Fields)
    requires Keys(fields) == OutputKeys && PyTruthy(fields[1].1)
    ensures "link" in Keys(DropFalsy(fields))
  {
    var r := DropFalsy(fields);
    assert fields[1].0 == Keys(fields)[1];
    assert fields[1] in r;
    var j :| 0 <= j < |r| && r[j] == fields[1];
    assert Keys(r)[j] == "link";
  }

  /** A `dict.get` result that is present and truthy (what `or` keeps). */
  predicate Given(v: Option<Json>) {
    v.Some? && PyTruthy(v.value)
  }

  /** A member as the sparse record holds it: present exactly when truthy. */
  function Kept(v: Json): Option<Json> {
    if PyTruthy(v) then Some(v) else None
  }

  /** A member of a list of members contributes its key. */
  lemma KeyOfMember(fields: Fields, m: (string, Json))
    requires m in fields
    ensures m.0 in Keys(fields)
  {
    var j :| 0 <= j < |fields| && fields[j] == m;
    assert Keys(fields)[j] == m.0;
  }

  /** Looking a key up after removing falsy members finds its value exactly when that value is truthy. */
  lemma {:induction false} GetDropFalsy(fields: Fields, i: nat)
    requires DistinctKeys(fields) && i < |fields|
    ensures Get(DropFalsy(fields), fields[i].0) == Kept(fields[i].1)
    decreases |fields|
  {
    var k := fields[i].0;
    var rest := DropFalsy(fields[1..]);
    if i == 0 {
      assert k !in Keys(fields[1..]);
      forall j | 0 <= j < |rest|
        ensures Keys(rest)[j] != k
      {
        KeyOfMember(fields[1..], rest[j]);
      }
      assert k !in Keys(rest);
      if PyTruthy(fields[0].1) {
        assert DropFalsy(fields)[1..] == rest;
      }
    } else {
      GetDropFalsy(fields[1..], i - 1);
      if PyTruthy(fields[0].1) {
        assert DropFalsy(fields)[1..] == rest;
      }
    }
  }

  /** In a candidate record, each output key holds its candidate value exactly when that value is truthy. */
  lemma SparseMember(c: Fields, i: nat)
    requires Keys(c) == OutputKeys && i < 5
    ensures Get(DropFalsy(c), OutputKeys[i]) == Kept(c[i].1)
  {
    assert DistinctKeys(c) by {
      assert forall j :: 0 <= j < 5 ==> c[j].0 == Keys(c)[j];
    }
    assert c[i].0 == Keys(c)[i];
    GetDropFalsy(c, i);
  }

  /** Each output key holds its candidate value exactly when that value is truthy. */
  lemma NormalizedMember(article: Fields, i: nat)
    requires Accepted(article) && i < 5
    ensures Candidates(article).Success? && NormalizeArticle(JObject(article)).Success?
    ensures Get(NormalizeArticle(JObject(article)).value, OutputKeys[i]) == Kept(Candidates(article).value[i].1)
  {
    CandidatesAccepted(article);
    var c := Candidates(article).value;
    assert NormalizeArticle(JObject(article)) == Success(DropFalsy(c));
    SparseMember(c, i);
  }

  /** A string that is present exactly when non-empty. */
  function NonEmpty(s: string): Option<Json> {
    if s == "" then None else Some(JString(s))
  }

  /**
   * `title` holds the stripped `title` text and is absent when stripping
   * leaves nothing, or when the member is missing or falsy.
   */
  lemma TitleStripped(article: Fields)
    requires Accepted(article)
    ensures NormalizeArticle(JObject(article)).Success?
    ensures Get(NormalizeArticle(JObject(article)).value, "title") == NonEmpty(Trim(Python, TextOf(Get(article, "title"))))
  {
    var out := NormalizeArticle(JObject(article)).value;
    var x := Trim(Python, TextOf(Get(article, "title")));
    NormalizedMember(article, 0);
    assert Candidates(article).value[0].1 == JString(x);
    assert Get(out, "title") == Kept(JString(x));
    KeptString(x);
  }

  /** A string member is kept exactly when it is non-empty. */
  lemma KeptString(x: string)
    ensures Kept(JString(x)) == NonEmpty(x)
  {
  }

  /** `summary` is the stripped `paragraph` text, absent when that is empty. */
  lemma SummaryStripped(article: Fields)
    requires Accepted(article)
    ensures NormalizeArticle(JObject(article)).Success?
    ensures Get(NormalizeArticle(JObject(article)).value, "summary") == NonEmpty(Trim(Python, TextOf(Get(article, "paragraph"))))
  {
    var out := NormalizeArticle(JObject(article)).value;
    var x := Trim(Python, TextOf(Get(article, "paragraph")));
    NormalizedMember(article, 2);
    assert Candidates(article).value[2].1 == JString(x);
    assert Get(out, "summary") == Kept(JString(x));
    KeptString(x);
  }

  /**
   * `link` is always present: the `titleLink` text (or "" when it is
   * missing or falsy) resolved against `https://udn.com`.
   */
  lemma LinkAlwaysResolved(article: Fields)
    requires Accepted(article)
    ensures NormalizeArticle(JObject(article)).Success?
    ensures Url.PyUrljoin(TextOf(Get(article, "titleLink"))).Some?
    ensures Get(NormalizeArticle(JObject(article)).value, "link") == Some(JString(Url.PyUrljoin(TextOf(Get(article, "titleLink"))).value))
  {
    NormalizedMember(article, 1);
  }

  /**
   * The time value before stripping: from an object, the first truthy of
   * `date`, `time`, `datetime`; from anything else, the member itself; ""
   * when there is no truthy choice.
   */
  lemma TimeChoice(t: Option<Json>)
    ensures t.Some? && t.value.JObject? ==>
      var f := t.value.fields;
      && (Given(Get(f, "date")) ==> TimeValue(t) == Get(f, "date").value)
      && (!Given(Get(f, "date")) && Given(Get(f, "time")) ==> TimeValue(t) == Get(f, "time").value)
      && (!Given(Get(f, "date")) && !Given(Get(f, "time")) && Given(Get(f, "datetime")) ==> TimeValue(t) == Get(f, "datetime").value)
      && (!Given(Get(f, "date")) && !Given(Get(f, "time")) && !Given(Get(f, "datetime")) ==> TimeValue(t) == JString(""))
    ensures !(t.Some? && t.value.JObject?) ==> TimeValue(t) == (if Given(t) then t.value else JString(""))
  {
  }

  /** The time member is the time value, stripped when a string, and absent when that is falsy. */
  lemma TimeMember(article: Fields)
    requires Accepted(article)
    ensures NormalizeArticle(JObject(article)).Success?
    ensures Get(NormalizeArticle(JObject(article)).value, "time") == Kept(StripIfString(TimeValue(Get(article, "time"))))
  {
    NormalizedMember(article, 3);
  }

  /**
   * A time object contributes the first truthy of `date`, `time`,
   * `datetime`, stripped when it is a string; the member is absent when
   * there is none or the chosen value strips to nothing.
   */
  lemma TimeFromObject(article: Fields)
    requires Accepted(article)
    requires Get(article, "time").Some? && Get(article, "time").value.JObject?
    ensures NormalizeArticle(JObject(article)).Success?
    ensures var out := NormalizeArticle(JObject(article)).value;
      var f := Get(article, "time").value.fields;
      && (Given(Get(f, "date")) ==> Get(out, "time") == Kept(StripIfString(Get(f, "date").value)))
      && (!Given(Get(f, "date")) && Given(Get(f, "time")) ==> Get(out, "time") == Kept(StripIfString(Get(f, "time").value)))
      && (!Given(Get(f, "date")) && !Given(Get(f, "time")) && Given(Get(f, "datetime")) ==>
            Get(out, "time") == Kept(StripIfString(Get(f, "datetime").value)))
      && (!Given(Get(f, "date")) && !Given(Get(f, "time")) && !Given(Get(f, "datetime")) ==> Get(out, "time") == None)
  {
    TimeMember(article);
    ObjectTime(Get(article, "time").value.fields);
  }

  /** The stripped time value of a time object, case by case. */
  lemma ObjectTime(f: Fields)
    ensures var t := Kept(StripIfString(TimeValue(Some(JObject(f)))));
      && (Given(Get(f, "date")) ==> t == Kept(StripIfString(Get(f, "date").value)))
      && (!Given(Get(f, "date")) && Given(Get(f, "time")) ==> t == Kept(StripIfString(Get(f, "time").value)))
      && (!Given(Get(f, "date")) && !Given(Get(f, "time")) && Given(Get(f, "datetime")) ==> t == Kept(StripIfString(Get(f, "datetime").value)))
      && (!Given(Get(f, "date")) && !Given(Get(f, "time")) && !Given(Get(f, "datetime")) ==> t == None)
  {
    var v := TimeValue(Some(JObject(f)));
    if Given(Get(f, "date")) {
      assert v == Get(f, "date").value;
    } else if Given(Get(f, "time")) {
      assert v == Get(f, "time").value;
    } else if Given(Get(f, "datetime")) {
      assert v == Get(f, "datetime").value;
    } else {
      assert v == JString("");
      TrimEmpty(Python);
    }
  }

  /**
   * Any other time member is taken as it is: a string is stripped and kept
   * when something remains, another truthy value is kept unchanged, and a
   * missing or falsy one gives no time.
   */
  lemma TimeFromOther(article: Fields)
    requires Accepted(article)
    requires !(Get(article, "time").Some? && Get(article, "time").value.JObject?)
    ensures NormalizeArticle(JObject(article)).Success?
    ensures var out := NormalizeArticle(JObject(article)).value;
      var t := Get(article, "time");
      && (t.Some? && t.value.JString? ==> Get(out, "time") == NonEmpty(Trim(Python, t.value.s)))
      && (Given(t) && !t.value.JString? ==> Get(out, "time") == Some(t.value))
      && (!Given(t) ==> Get(out, "time") == None)
  {
    TimeMember(article);
    OtherTime(Get(article, "time"));
  }

  /** The stripped time value of a member that is not an object. */
  lemma OtherTime(t: Option<Json>)
    requires !(t.Some? && t.value.JObject?)
    ensures t.Some? && t.value.JString? ==> Kept(StripIfString(TimeValue(t))) == NonEmpty(Trim(Python, t.value.s))
    ensures Given(t) && !t.value.JString? ==> Kept(StripIfString(TimeValue(t))) == Some(t.value)
    ensures !Given(t) ==> Kept(StripIfString(TimeValue(t))) == None
  {
    TrimEmpty(Python);
    if t.None? {
      assert TimeValue(t) == JString("");
    } else if t.value.JString? {
      assert TimeValue(t) == JString(t.value.s);
      KeptString(Trim(Python, t.value.s));
    } else if PyTruthy(t.value) {
      assert TimeValue(t) == t.value;
    } else {
      assert TimeValue(t) == JString("");
    }
  }

  /** `image` is the `url` member itself when truthy, whatever its type, and absent otherwise. */
  lemma ImageWhenTruthy(article: Fields)
    requires Accepted(article)
    ensures NormalizeArticle(JObject(article)).Success?
    ensures var url := Get(article, "url");
      Get(NormalizeArticle(JObject(article)).value, "image") == (if Given(url) then Some(url.value) else None)
  {
    NormalizedMember(article, 4);
  }

  /**
   * The normalizer is not total: a truthy title that is not a string
   * raises, because only strings have `.strip()`.
   */
  lemma TruthyNonStringTitleRaises(article: Fields)
    requires TruthyNonString(Get(article, "title"))
    ensures NormalizeArticle(JObject(article)) == Failure(NoStripMethod("title"))
  {
  }

  /**
   * With an acceptable title, a truthy non-string `titleLink` makes
   * `urljoin` raise TypeError (it cannot mix a str base with it).
   */
  lemma TruthyNonStringLinkRaises(article: Fields)
    requires !TruthyNonString(Get(article, "title")) && TruthyNonString(Get(article, "titleLink"))
    ensures NormalizeArticle(JObject(article)) == Failure(MixedJoinArgs)
  {
  }

  /**
   * With an acceptable title and link, a truthy non-string `paragraph`
   * raises AttributeError at `.strip()`.
   */
  lemma TruthyNonStringParagraphRaises(article: Fields)
    requires !TruthyNonString(Get(article, "title")) && !TruthyNonString(Get(article, "titleLink"))
    requires Url.Classify(TextOf(Get(article, "titleLink"))).Some? && TruthyNonString(Get(article, "paragraph"))
    ensures NormalizeArticle(JObject(article)) == Failure(NoStripMethod("paragraph"))
  {
  }

  /** No output key is an input key the normalizer reads text from. */
  lemma ParagraphIsNotAnOutputKey(out: Fields)
    requires Seqs.IsSubsequence(Keys(out), OutputKeys)
    ensures Get(out, "paragraph").None?
  {
    Seqs.SubsequenceMembers(Keys(out), OutputKeys);
    assert forall k :: 0 <= k < 5 ==> |OutputKeys[k]| != 9;
  }

  /**
   * Normalizing is not idempotent: a record with a summary loses it when
   * normalized again, because the summary is read from `paragraph`.
   */
  lemma RenormalizingLosesSummary(article: Fields)
    requires Accepted(article) && |Trim(Python, TextOf(Get(article, "paragraph")))| > 0
    ensures NormalizeArticle(JObject(article)).Success?
    ensures var out := NormalizeArticle(JObject(article)).value;
      NormalizeArticle(JObject(out)) != Success(out)
  {
    SummaryStripped(article);
    var out := NormalizeArticle(JObject(article)).value;
    assert Get(out, "summary").Some?;
    if NormalizeArticle(JObject(out)).Success? {
      ParagraphIsNotAnOutputKey(out);
      SummaryStripped(out);
      TrimEmpty(Python);
    }
  }
}

=== FILE: postprocess.dfy ===
/**
 * The Deno post-processor: its own `normalizeArticle` and the pipeline
 * that turns `payload.lists` into the output array.
 */
module JsPostprocess {
  import opened Wrappers
  import opened Json
  import opened Text
  import Url
  import Seqs

  /** What the script can throw, plus the links this model does not resolve. */
  datatype JsError =
    | ReadPropertyOfNull         // `payload.lists` on a `null` payload
    | LinkNotModelled(link: string)

  /** `v[key]`: a missing property, or any property of a non-object, reads as `undefined` (`None`). */
  function Prop(v: Json, key: string): (r: Option<Json>)
    ensures r.None? <==> !v.JObject? || key !in Keys(v.fields)
    ensures r.Some? ==> (key, r.value) in v.fields
  {
    if v.JObject? then Get(v.fields, key) else None
  }

  /** `typeof v[key] === "string" ? v[key] : ""`. */
  function StringProp(v: Json, key: string): (r: string)
    ensures Prop(v, key).Some? && Prop(v, key).value.JString? ==> Prop(v, key) == Some(JString(r))
    ensures !(Prop(v, key).Some? && Prop(v, key).value.JString?) ==> r == ""
  {
    var p := Prop(v, key);
    if p.Some? && p.value.JString? then p.value.s else ""
  }

  /** `v !== null && typeof v === "object"`: objects and arrays. */
  predicate IsObjectLike(v: Json) {
    v.JObject? || v.JArray?
  }

  /** A possibly `undefined` value that JavaScript treats as true. */
  predicate Truthy(o: Option<Json>) {
    o.Some? && JsTruthy(o.value)
  }

  /** `undefined` or `null`: what `??` falls through on. */
  predicate Nullish(o: Option<Json>) {
    o.None? || o.value.JNull?
  }

  /** `a ?? b`. */
  function Coalesce(a: Option<Json>, b: Option<Json>): (r: Option<Json>)
    ensures !Nullish(a) ==> r == a
    ensures Nullish(a) ==> r == b
  {
    if Nullish(a) then b else a
  }

  /**
   * The time value before trimming: for an object or array, the first of
   * `date`, `time`, `datetime` that is not nullish, else ""; anything else
   * is taken as it is (possibly `undefined`).
   */
  function TimeValue(raw: Option<Json>): (r: Option<Json>)
    ensures !(Truthy(raw) && IsObjectLike(raw.value)) ==> r == raw
    ensures Truthy(raw) && IsObjectLike(raw.value) ==>
      && !Nullish(r)
      && (r == Prop(raw.value, "date") || r == Prop(raw.value, "time") || r == Prop(raw.value, "datetime") || r == Some(JString("")))
  {
    if Truthy(raw) && IsObjectLike(raw.value) then
      Coalesce(Prop(raw.value, "date"), Coalesce(Prop(raw.value, "time"), Coalesce(Prop(raw.value, "datetime"), Some(JString("")))))
    else raw
  }

  /** `typeof v === "string" ? v.trim() : v`. */
  function TrimIfString(o: Option<Json>): (r: Option<Json>)
    ensures o.Some? && o.value.JString? ==> r.Some? && r.value.JString? && Trimmed(JavaScript, r.value.s)
    ensures o.Some? && o.value.JString? ==> CutBetweenSpaces(JavaScript, r.value.s, o.value.s)
    ensures !(o.Some? && o.value.JString?) ==> r == o
  {
    if o.Some? && o.value.JString? then TrimCutsOnlySpaces(JavaScript, o.value.s); Some(JString(Trim(JavaScript, o.value.s))) else o
  }

  /** A member that is set only when its value is truthy. */
  function IfTruthy(o: Option<Json>): (r: Option<Json>)
    ensures r.Some? <==> o.Some? && JsTruthy(o.value)
    ensures r.Some? ==> r == o
  {
    if Truthy(o) then o else None
  }

  /** The members that are set, in order. */
  function Compact(cands: seq<(string, Option<Json>)>): (r: Fields)
    ensures |r| <= |cands|
    ensures forall m :: m in r ==> (m.0, Some(m.1)) in cands
    ensures forall i :: 0 <= i < |cands| && cands[i].1.Some? ==> (cands[i].0, cands[i].1.value) in r
    ensures Seqs.IsSubsequence(Keys(r), Keys(cands))
  {
    if |cands| == 0 then []
    else
      var rest := Compact(cands[1..]);
      assert Keys(cands) == [cands[0].0] + Keys(cands[1..]);
      if cands[0].1.Some? then
        var m := (cands[0].0, cands[0].1.value);
        assert Keys([m] + rest) == [m.0] + Keys(rest);
        [m] + rest
      else
        Seqs.SubsequenceCons(Keys(rest), Keys(cands[1..]), cands[0].0);
        rest
  }

  /** The candidates' keys are the output keys, in order. */
  lemma CandidateKeys(c: seq<(string, Option<Json>)>)
    requires |c| == 5
    requires c[0].0 == "title" && c[1].0 == "link" && c[2].0 == "summary" && c[3].0 == "time" && c[4].0 == "image"
    ensures Keys(c) == OutputKeys
  {
  }

  /** Looking up a key of the compacted members finds its candidate, when keys are distinct. */
  lemma {:induction false} GetCompact(cands: seq<(string, Option<Json>)>, i: nat)
    requires forall a, b :: 0 <= a < b < |cands| ==> cands[a].0 != cands[b].0
    requires i < |cands|
    ensures Get(Compact(cands), cands[i].0) == cands[i].1
    decreases |cands|
  {
    var k := cands[i].0;
    var rest := Compact(cands[1..]);
    if i == 0 {
      forall j | 0 <= j < |rest|
        ensures Keys(rest)[j] != k
      {
        var m := rest[j];
        assert (m.0, Some(m.1)) in cands[1..];
        var a :| 0 <= a < |cands[1..]| && cands[1..][a] == (m.0, Some(m.1));
        assert cands[a + 1].0 == m.0;
      }
      assert k !in Keys(rest);
      if cands[0].1.Some? {
        assert Compact(cands)[1..] == rest;
      }
    } else {
      GetCompact(cands[1..], i - 1);
      if cands[0].1.Some? {
        assert Compact(cands)[1..] == rest;
      }
    }
  }

  /** The output's candidate members, in the order `normalizeArticle` sets them. */
  function Candidates(article: Json, url: string): (c: seq<(string, Option<Json>)>)
    ensures |c| == 5
    ensures c[0].0 == "title" && c[1].0 == "link" && c[2].0 == "summary" && c[3].0 == "time" && c[4].0 == "image"
    ensures c[0].1 == Some(JString(Trim(JavaScript, StringProp(article, "title")))) && c[1].1 == Some(JString(url))
    ensures c[2].1.Some? <==> |Trim(JavaScript, StringProp(article, "paragraph"))| > 0
    ensures c[2].1.Some? ==> c[2].1 == Some(JString(Trim(JavaScript, StringProp(article, "paragraph"))))
    ensures c[3].1.None? || JsTruthy(c[3].1.value)
    ensures c[4].1.Some? <==> |StringProp(article, "url")| > 0
    ensures c[4].1.Some? ==> c[4].1 == Prop(article, "url")
  {
    var title := Trim(JavaScript, StringProp(article, "title"));
    var summary := Trim(JavaScript, StringProp(article, "paragraph"));
    var time := TrimIfString(TimeValue(Prop(article, "time")));
    Record(title, url, summary, IfTruthy(time), StringProp(article, "url"))
  }

  /** The object literal and the three conditional assignments, before unset members are dropped. */
  function Record(title: string, link: string, summary: string, time: Option<Json>, image: string): (c: seq<(string, Option<Json>)>)
    ensures |c| == 5
    ensures c[0] == ("title", Some(JString(title))) && c[1] == ("link", Some(JString(link)))
    ensures c[2] == ("summary", if summary != "" then Some(JString(summary)) else None)
    ensures c[3] == ("time", time)
    ensures c[4] == ("image", if image != "" then Some(JString(image)) else None)
  {
    [ ("title", Some(JString(title))),
      ("link", Some(JString(link))),
      ("summary", if summary != "" then Some(JString(summary)) else None),
      ("time", time),
      ("image", if image != "" then Some(JString(image)) else None) ]
  }

  /**
   * `normalizeArticle`: `title` and `link` always set, `summary`, `time`
   * and `image` only when truthy; the link is `new URL(titleLink,
   * "https://udn.com")`.
   */
  function NormalizeArticle(article: Json): (r: Result<Fields, JsError>)
    ensures r.Success? <==> Accepted(article)
    ensures r.Failure? <==> Url.JsUrl(StringProp(article, "titleLink")).None?
    ensures r.Failure? ==> r.error == LinkNotModelled(StringProp(article, "titleLink"))
    ensures r.Success? ==> r.value == Compact(Candidates(article, Url.JsUrl(StringProp(article, "titleLink")).value))
    ensures r.Success? ==> Seqs.IsSubsequence(Keys(r.value), OutputKeys)
  {
    var link := StringProp(article, "titleLink");
    match Url.JsUrl(link)
    case None => Failure(LinkNotModelled(link))
    case Some(url) =>
      CandidateKeys(Candidates(article, url));
      Success(Compact(Candidates(article, url)))
  }

  /** The articles `normalizeArticle` returns for: those whose link the resolver models. */
  predicate Accepted(article: Json) {
    Url.Classify(StringProp(article, "titleLink")).Some?
  }

  /** `item.title && item.link`. */
  predicate HasTitleAndLink(item: Fields): (b: bool)
    ensures b ==> "title" in Keys(item) && "link" in Keys(item)
    ensures b <==> (var t, l := Get(item, "title"), Get(item, "link"); t.Some? && JsTruthy(t.value) && l.Some? && JsTruthy(l.value))
  {
    Truthy(Get(item, "title")) && Truthy(Get(item, "link"))
  }

  /** What the pipeline applies to each object entry. */
  type Normalizer = Json -> Result<Fields, JsError>

  /** `.map(norm)`: every entry normalized, or the first exception thrown. */
  function MapAll(norm: Normalizer, items: seq<Json>): (r: Result<seq<Fields>, JsError>)
    ensures r.Success? <==> forall i :: 0 <= i < |items| ==> norm(items[i]).Success?
    ensures r.Success? ==> |r.value| == |items| && forall i :: 0 <= i < |items| ==> norm(items[i]) == Success(r.value[i])
    ensures r.Failure? ==> exists i :: 0 <= i < |items| && norm(items[i]) == Failure(r.error)
  {
    if |items| == 0 then Success([])
    else
      var first :- norm(items[0]);
      var rest :- MapAll(norm, items[1..]);
      assert forall i :: 1 <= i < |items| ==> items[i] == items[1..][i - 1];
      Success([first] + rest)
  }

  /** `lists.filter(isObject).map(norm).filter(item => item.title && item.link)`. */
  function Pipeline(norm: Normalizer, lists: seq<Json>): (r: Result<seq<Fields>, JsError>)
    ensures r.Success? ==> forall k :: 0 <= k < |r.value| ==> HasTitleAndLink(r.value[k])
  {
    var mapped :- MapAll(norm, Seqs.Filter(IsObjectLike, lists));
    Success(Seqs.Filter(HasTitleAndLink, mapped))
  }

  /** `Array.isArray(payload.lists) ? payload.lists : []`, after reading `payload.lists`. */
  function Lists(payload: Json): (r: Result<seq<Json>, JsError>)
    ensures r.Failure? <==> payload.JNull?
    ensures r.Success? && |r.value| > 0 ==> Prop(payload, "lists") == Some(JArray(r.value))
  {
    if payload.JNull? then Failure(ReadPropertyOfNull)
    else
      match Prop(payload, "lists")
      case Some(JArray(items)) => Success(items)
      case _ => Success([])
  }

  /** The whole script after reading the input file: the output array. */
  function Postprocess(payload: Json): (r: Result<seq<Fields>, JsError>)
    ensures payload.JNull? ==> r == Failure(ReadPropertyOfNull)
    ensures r.Success? ==> forall k :: 0 <= k < |r.value| ==> HasTitleAndLink(r.value[k])
  {
    match Lists(payload)
    case Failure(e) => Failure(e)
    case Success(lists) => Pipeline(NormalizeArticle, lists)
  }

  /** Each output key holds its candidate member: set exactly when the candidate is. */
  lemma JsMember(article: Json, i: nat)
    requires Accepted(article) && i < 5
    ensures NormalizeArticle(article).Success?
    ensures var c := Candidates(article, Url.JsUrl(StringProp(article, "titleLink")).value);
      Get(NormalizeArticle(article).value, c[i].0) == c[i].1
  {
    var c := Candidates(article, Url.JsUrl(StringProp(article, "titleLink")).value);
    KeysDistinct(c);
    GetCompact(c, i);
  }

  /** The five output keys differ from each other. */
  lemma KeysDistinct(c: seq<(string, Option<Json>)>)
    requires |c| == 5
    requires c[0].0 == "title" && c[1].0 == "link" && c[2].0 == "summary" && c[3].0 == "time" && c[4].0 == "image"
    ensures forall a, b :: 0 <= a < b < |c| ==> c[a].0 != c[b].0
  {
    assert c[0].0[0] == 't' && c[0].0[1] == 'i' && |c[0].0| == 5;
    assert c[1].0[0] == 'l';
    assert c[2].0[0] == 's';
    assert c[3].0[0] == 't' && c[3].0[1] == 'i' && |c[3].0| == 4;
    assert c[4].0[0] == 'i';
  }

  /**
   * `title` is always set, to the trimmed title or "" when the title is
   * not a string; `link` is always set, to the resolved `titleLink` or to
   * the resolved "" when `titleLink` is not a string.
   */
  lemma TitleAndLinkSet(article: Json)
    requires Accepted(article)
    ensures NormalizeArticle(article).Success?
    ensures Get(NormalizeArticle(article).value, "title") == Some(JString(Trim(JavaScript, StringProp(article, "title"))))
    ensures Get(NormalizeArticle(article).value, "link") == Some(JString(Url.JsUrl(StringProp(article, "titleLink")).value))
  {
    JsMember(article, 0);
    JsMember(article, 1);
  }

  /** `summary` is the trimmed `paragraph`, set only when non-empty; a non-string `paragraph` reads as "". */
  lemma SummaryWhenNonEmpty(article: Json)
    requires Accepted(article)
    ensures NormalizeArticle(article).Success?
    ensures var s := Trim(JavaScript, StringProp(article, "paragraph"));
      Get(NormalizeArticle(article).value, "summary") == if s != "" then Some(JString(s)) else None
  {
    JsMember(article, 2);
  }

  /** `image` is set exactly when `url` is a non-empty string, and then it is that string. */
  lemma ImageOnlyForNonEmptyString(article: Json)
    requires Accepted(article)
    ensures NormalizeArticle(article).Success?
    ensures var url := Prop(article, "url");
      Get(NormalizeArticle(article).value, "image") ==
        if url.Some? && url.value.JString? && url.value.s != "" then url else None
  {
    JsMember(article, 4);
  }

  /** `time` is the trimmed time value, set only when truthy. */
  lemma TimeMember(article: Json)
    requires Accepted(article)
    ensures NormalizeArticle(article).Success?
    ensures Get(NormalizeArticle(article).value, "time") == IfTruthy(TrimIfString(TimeValue(Prop(article, "time"))))
  {
    JsMember(article, 3);
  }

  /**
   * From a time object the first of `date`, `time`, `datetime` that is not
   * `null` or missing is taken, even when it is falsy: a `date` that trims
   * to "" leaves `time` unset whatever `time` and `datetime` hold.
   */
  lemma TimeFromObject(article: Json)
    requires Accepted(article)
    ensures NormalizeArticle(article).Success?
    requires Truthy(Prop(article, "time")) && IsObjectLike(Prop(article, "time").value)
    ensures var out := NormalizeArticle(article).value;
      var raw := Prop(article, "time").value;
      && (!Nullish(Prop(raw, "date")) ==> Get(out, "time") == IfTruthy(TrimIfString(Prop(raw, "date"))))
      && (Nullish(Prop(raw, "date")) && !Nullish(Prop(raw, "time")) ==> Get(out, "time") == IfTruthy(TrimIfString(Prop(raw, "time"))))
      && (Nullish(Prop(raw, "date")) && Nullish(Prop(raw, "time")) && !Nullish(Prop(raw, "datetime")) ==>
            Get(out, "time") == IfTruthy(TrimIfString(Prop(raw, "datetime"))))
      && (Nullish(Prop(raw, "date")) && Nullish(Prop(raw, "time")) && Nullish(Prop(raw, "datetime")) ==> Get(out, "time") == None)
  {
    TimeMember(article);
    ObjectTime(Prop(article, "time").value);
  }

  /** The time value of an object or array: the first of its `date`, `time`, `datetime` that is not nullish. */
  lemma ObjectTime(raw: Json)
    requires IsObjectLike(raw)
    ensures var t := IfTruthy(TrimIfString(TimeValue(Some(raw))));
      && (!Nullish(Prop(raw, "date")) ==> t == IfTruthy(TrimIfString(Prop(raw, "date"))))
      && (Nullish(Prop(raw, "date")) && !Nullish(Prop(raw, "time")) ==> t == IfTruthy(TrimIfString(Prop(raw, "time"))))
      && (Nullish(Prop(raw, "date")) && Nullish(Prop(raw, "time")) && !Nullish(Prop(raw, "datetime")) ==>
            t == IfTruthy(TrimIfString(Prop(raw, "datetime"))))
      && (Nullish(Prop(raw, "date")) && Nullish(Prop(raw, "time")) && Nullish(Prop(raw, "datetime")) ==> t == None)
  {
    var v := TimeValue(Some(raw));
    if !Nullish(Prop(raw, "date")) {
      assert v == Prop(raw, "date");
    } else if !Nullish(Prop(raw, "time")) {
      assert v == Prop(raw, "time");
    } else if !Nullish(Prop(raw, "datetime")) {
      assert v == Prop(raw, "datetime");
    } else {
      assert v == Some(JString(""));
      TrimEmpty(JavaScript);
    }
  }

  /** A normalized article passes the last filter exactly when its trimmed title is non-empty. */
  lemma KeptIffTitled(article: Json)
    requires Accepted(article)
    ensures NormalizeArticle(article).Success?
    ensures HasTitleAndLink(NormalizeArticle(article).value) <==> |Trim(JavaScript, StringProp(article, "title"))| > 0
  {
    TitleAndLinkSet(article);
    TitledFields(NormalizeArticle(article).value, Trim(JavaScript, StringProp(article, "title")),
                 Url.JsUrl(StringProp(article, "titleLink")).value);
  }

  /** With a string title and a non-empty link, the last filter looks at the title only. */
  lemma TitledFields(out: Fields, title: string, link: string)
    requires Get(out, "title") == Some(JString(title)) && Get(out, "link") == Some(JString(link)) && |link| > 0
    ensures HasTitleAndLink(out) <==> |title| > 0
  {
  }

  /** The pipeline keeps the relative order of the entries it outputs. */
  lemma PipelineKeepsOrder(norm: Normalizer, lists: seq<Json>)
    requires Pipeline(norm, lists).Success?
    ensures Seqs.IsSubsequence(Pipeline(norm, lists).value, MapAll(norm, Seqs.Filter(IsObjectLike, lists)).value)
  {
    Seqs.FilterIsSubsequence(HasTitleAndLink, MapAll(norm, Seqs.Filter(IsObjectLike, lists)).value);
  }

  /** Every object entry whose normalized form has a title and a link is in the output. */
  lemma PipelineComplete(norm: Normalizer, lists: seq<Json>, i: nat)
    requires Pipeline(norm, lists).Success?
    requires i < |lists| && IsObjectLike(lists[i]) && norm(lists[i]).Success? && HasTitleAndLink(norm(lists[i]).value)
    ensures norm(lists[i]).value in Pipeline(norm, lists).value
  {
    var objects := Seqs.Filter(IsObjectLike, lists);
    var mapped := MapAll(norm, objects).value;
    assert lists[i] in objects;
    var j :| 0 <= j < |objects| && objects[j] == lists[i];
    assert mapped[j] == norm(lists[i]).value;
  }

  /** Every output item is the normalized form of an object entry, and has a title and a link. */
  lemma PipelineSound(norm: Normalizer, lists: seq<Json>, x: Fields)
    requires Pipeline(norm, lists).Success? && x in Pipeline(norm, lists).value
    ensures HasTitleAndLink(x)
    ensures exists i :: 0 <= i < |lists| && IsObjectLike(lists[i]) && norm(lists[i]) == Success(x)
  {
    var objects := Seqs.Filter(IsObjectLike, lists);
    var mapped := MapAll(norm, objects).value;
    var out := Pipeline(norm, lists).value;
    assert out == Seqs.Filter(HasTitleAndLink, mapped);
    var k :| 0 <= k < |out| && out[k] == x;
    assert HasTitleAndLink(out[k]);
    assert x in mapped;
    var j :| 0 <= j < |mapped| && mapped[j] == x;
    assert norm(objects[j]) == Success(x);
    assert objects[j] in lists;
    var i :| 0 <= i < |lists| && lists[i] == objects[j];
    assert norm(lists[i]) == Success(x);
  }

  /** The pipeline throws exactly when normalizing some object entry throws; other entries are never normalized. */
  lemma PipelineFails(norm: Normalizer, lists: seq<Json>)
    ensures Pipeline(norm, lists).Failure? <==> exists i :: 0 <= i < |lists| && IsObjectLike(lists[i]) && norm(lists[i]).Failure?
  {
    var objects := Seqs.Filter(IsObjectLike, lists);
    if exists i :: 0 <= i < |lists| && IsObjectLike(lists[i]) && norm(lists[i]).Failure? {
      var i :| 0 <= i < |lists| && IsObjectLike(lists[i]) && norm(lists[i]).Failure?;
      assert lists[i] in objects;
    }
    if Pipeline(norm, lists).Failure? {
      var j :| 0 <= j < |objects| && norm(objects[j]).Failure?;
      assert objects[j] in lists;
    }
  }

  /** When `payload.lists` is not an array the output is empty. */
  lemma NonArrayListsGiveNothing(payload: Json)
    requires !payload.JNull?
    requires !(Prop(payload, "lists").Some? && Prop(payload, "lists").value.JArray?)
    ensures Postprocess(payload) == Success([])
  {
  }

  /**
   * When every object entry of `lists` is accepted, the script succeeds,
   * and each object entry whose trimmed title is non-empty is in the
   * output in normalized form.
   */
  lemma PostprocessSelects(payload: Json, i: nat)
    requires payload.JObject? && Prop(payload, "lists").Some? && Prop(payload, "lists").value.JArray?
    requires var lists := Prop(payload, "lists").value.items;
      forall j :: 0 <= j < |lists| && IsObjectLike(lists[j]) ==> Accepted(lists[j])
    requires i < |Prop(payload, "lists").value.items| && IsObjectLike(Prop(payload, "lists").value.items[i])
    ensures Postprocess(payload).Success?
    ensures var entry := Prop(payload, "lists").value.items[i];
      NormalizeArticle(entry).Success? &&
      (|Trim(JavaScript, StringProp(entry, "title"))| > 0 ==> NormalizeArticle(entry).value in Postprocess(payload).value)
  {
    var lists := Prop(payload, "lists").value.items;
    var entry := lists[i];
    assert Lists(payload) == Success(lists);
    assert Postprocess(payload) == Pipeline(NormalizeArticle, lists);
    PipelineFails(NormalizeArticle, lists);
    assert forall j :: 0 <= j < |lists| && IsObjectLike(lists[j]) ==> NormalizeArticle(lists[j]).Success?;
    KeptIffTitled(entry);
    if |Trim(JavaScript, StringProp(entry, "title"))| > 0 {
      PipelineComplete(NormalizeArticle, lists, i);
    }
  }
}

=== FILE: request.dfy ===
/** The outbound request for one page of the breaking-news listing (`build_request`). */
module Request {
  import opened Wrappers
  import Decimal

  const BaseUrl: string := "https://udn.com/api/more"

  const DefaultUserAgent: string :=
    "Mozilla/5.0 (X11; Linux x86_64) AppleWebKit/537.36 (KHTML, like Gecko) Chrome/122.0.0.0 Safari/537.36"

  /**
   * A GET request: the endpoint, its query parameters in the order they are
   * encoded (left unencoded here) and the request headers.
   */
  datatype Request = Request(url: string, query: seq<(string, string)>, headers: seq<(string, string)>)

  /** The four query parameters, in order: `page`, `id`, `channelId`, `type`. */
  const QueryKeys: seq<string> := ["page", "id", "channelId", "type"]

  /**
   * Page and ids are written as decimal strings that read back as the
   * given integers, the news type is passed through, and the only header
   * is the fixed User-Agent.
   */
  function BuildRequest(page: int, categoryId: int, channelId: int, newsType: string): (r: Request)
    ensures r.url == BaseUrl
    ensures |r.query| == |QueryKeys|
    ensures forall k :: 0 <= k < |QueryKeys| ==> r.query[k].0 == QueryKeys[k]
    ensures Decimal.ParseInt(r.query[0].1).Some? && Decimal.ParseInt(r.query[0].1).value == page
    ensures Decimal.ParseInt(r.query[1].1).Some? && Decimal.ParseInt(r.query[1].1).value == categoryId
    ensures Decimal.ParseInt(r.query[2].1).Some? && Decimal.ParseInt(r.query[2].1).value == channelId
    ensures r.query[3].1 == newsType
    ensures r.headers == [("User-Agent", DefaultUserAgent)]
  {
    Request(
      BaseUrl,
      [ ("page", IntParam(page)),
        ("id", IntParam(categoryId)),
        ("channelId", IntParam(channelId)),
        ("type", newsType) ],
      [("User-Agent", DefaultUserAgent)])
  }

  /** `str(i)` as a query value: it reads back as `i`. */
  function IntParam(i: int): (s: string)
    ensures Decimal.ParseInt(s) == Some(i)
  {
    Decimal.ParseFormatInt(i);
    Decimal.FormatInt(i)
  }

  /** Requests for different pages differ, so each fetch in a trace names its page. */
  lemma PagesAreDistinguished(p: int, q: int, categoryId: int, channelId: int, newsType: string)
    requires p != q
    ensures BuildRequest(p, categoryId, channelId, newsType) != BuildRequest(q, categoryId, channelId, newsType)
  {
    var a := BuildRequest(p, categoryId, channelId, newsType);
    var b := BuildRequest(q, categoryId, channelId, newsType);
    assert Decimal.ParseInt(a.query[0].1) != Decimal.ParseInt(b.query[0].1);
  }
}

=== FILE: runtimes.dfy ===
/** Where the Python normalizer and the Deno normalizer disagree on the same entry. */
module Runtimes {
  import opened Wrappers
  import opened Json
  import opened Text
  import Url
  import PyNormalize
  import JsPostprocess

  /** Python's `or` skips a `date` of "" and takes the stripped `time` string. */
  lemma PythonSkipsEmptyDate(article: Fields, d: string, t: string)
    requires PyNormalize.Accepted(article)
    requires Get(article, "time").Some? && Get(article, "time").value.JObject?
    requires Get(Get(article, "time").value.fields, "date") == Some(JString(d)) && |d| == 0
    requires Get(Get(article, "time").value.fields, "time") == Some(JString(t)) && |Trim(Python, t)| > 0
    ensures PyNormalize.NormalizeArticle(JObject(article)).Success?
    ensures Get(PyNormalize.NormalizeArticle(JObject(article)).value, "time") == Some(JString(Trim(Python, t)))
  {
    PyNormalize.TimeMember(article);
    PyTimeOf(Get(article, "time").value.fields, d, t);
  }

  /** The Python time value of an object whose `date` is empty and whose `time` has text. */
  lemma PyTimeOf(f: Fields, d: string, t: string)
    requires Get(f, "date") == Some(JString(d)) && |d| == 0
    requires Get(f, "time") == Some(JString(t)) && |Trim(Python, t)| > 0
    ensures PyNormalize.Kept(PyNormalize.StripIfString(PyNormalize.TimeValue(Some(JObject(f))))) == Some(JString(Trim(Python, t)))
  {
    assert |t| > 0;
    assert !PyNormalize.Given(Get(f, "date")) && PyNormalize.Given(Get(f, "time"));
    assert PyNormalize.TimeValue(Some(JObject(f))) == JString(t);
  }

  /** JavaScript's `??` stops at a `date` of "", which then leaves the time unset. */
  lemma JsStopsAtEmptyDate(article: Fields, d: string)
    requires JsPostprocess.Accepted(JObject(article))
    requires Get(article, "time").Some? && Get(article, "time").value.JObject?
    requires Get(Get(article, "time").value.fields, "date") == Some(JString(d)) && |d| == 0
    ensures JsPostprocess.NormalizeArticle(JObject(article)).Success?
    ensures Get(JsPostprocess.NormalizeArticle(JObject(article)).value, "time") == None
  {
    JsPostprocess.TimeMember(JObject(article));
    JsTimeOf(Get(article, "time").value, d);
  }

  /** The JavaScript time value of an object whose `date` is empty. */
  lemma JsTimeOf(raw: Json, d: string)
    requires raw.JObject? && JsPostprocess.Prop(raw, "date") == Some(JString(d)) && |d| == 0
    ensures JsPostprocess.IfTruthy(JsPostprocess.TrimIfString(JsPostprocess.TimeValue(Some(raw)))) == None
  {
    assert |Trim(JavaScript, d)| == 0;
  }

  /**
   * A time object whose `date` is "" and whose `time` is a string with
   * text: Python's `or` skips the empty `date` and keeps the stripped
   * `time`, JavaScript's `??` stops at the empty `date` and sets no time.
   */
  lemma EmptyDateFallsThroughOnlyInPython(article: Fields, d: string, t: string)
    requires PyNormalize.Accepted(article)
    requires JsPostprocess.Accepted(JObject(article))
    requires Get(article, "time").Some? && Get(article, "time").value.JObject?
    requires Get(Get(article, "time").value.fields, "date") == Some(JString(d)) && |d| == 0
    requires Get(Get(article, "time").value.fields, "time") == Some(JString(t)) && |Trim(Python, t)| > 0
    ensures PyNormalize.NormalizeArticle(JObject(article)).Success?
    ensures JsPostprocess.NormalizeArticle(JObject(article)).Success?
    ensures Get(PyNormalize.NormalizeArticle(JObject(article)).value, "time") == Some(JString(Trim(Python, t)))
    ensures Get(JsPostprocess.NormalizeArticle(JObject(article)).value, "time") == None
  {
    PythonSkipsEmptyDate(article, d, t);
    JsStopsAtEmptyDate(article, d);
  }

  /** Without a `titleLink`, Python links to `https://udn.com` and JavaScript to `https://udn.com/`. */
  lemma MissingLinkDiffersBySlash(article: Fields)
    requires PyNormalize.Accepted(article)
    requires JsPostprocess.Accepted(JObject(article))
    requires Get(article, "titleLink").None?
    ensures PyNormalize.NormalizeArticle(JObject(article)).Success?
    ensures JsPostprocess.NormalizeArticle(JObject(article)).Success?
    ensures Get(PyNormalize.NormalizeArticle(JObject(article)).value, "link") == Some(JString("https://udn.com"))
    ensures Get(JsPostprocess.NormalizeArticle(JObject(article)).value, "link") == Some(JString("https://udn.com/"))
  {
    PyNormalize.LinkAlwaysResolved(article);
    JsPostprocess.TitleAndLinkSet(JObject(article));
    Url.EmptyLink();
  }

  /** A story path resolves to the same absolute link in both normalizers. */
  lemma StoryLinkAgrees(article: Fields)
    requires PyNormalize.Accepted(article)
    requires JsPostprocess.Accepted(JObject(article))
    requires Get(article, "titleLink") == Some(JString("/story/123"))
    ensures PyNormalize.NormalizeArticle(JObject(article)).Success?
    ensures JsPostprocess.NormalizeArticle(JObject(article)).Success?
    ensures Get(PyNormalize.NormalizeArticle(JObject(article)).value, "link") == Some(JString("https://udn.com/story/123"))
    ensures Get(JsPostprocess.NormalizeArticle(JObject(article)).value, "link") == Some(JString("https://udn.com/story/123"))
  {
    assert PyNormalize.TextOf(Get(article, "titleLink")) == "/story/123";
    assert JsPostprocess.StringProp(JObject(article), "titleLink") == "/story/123";
    PyNormalize.LinkAlwaysResolved(article);
    JsPostprocess.TitleAndLinkSet(JObject(article));
    Url.StoryLink();
  }
}

=== FILE: seqs.dfy ===
/** Order-preserving sub-selection of sequences. */
module Seqs {

  /** `a` can be obtained from `b` by deleting elements, keeping the rest in order. */
  predicate IsSubsequence<T(==)>(a: seq<T>, b: seq<T>)
    decreases |b|
  {
    if |a| == 0 then true
    else if |b| == 0 then false
    else if a[0] == b[0] then IsSubsequence(a[1..], b[1..])
    else IsSubsequence(a, b[1..])
  }

  /** The elements of `s` that satisfy `keep`, in their original order (`Array.prototype.filter`). */
  function Filter<T(!new)>(keep: T -> bool, s: seq<T>): (r: seq<T>)
    ensures |r| <= |s|
    ensures forall i :: 0 <= i < |r| ==> keep(r[i])
    ensures forall i :: 0 <= i < |s| && keep(s[i]) ==> s[i] in r
    ensures forall x :: x in r ==> x in s
    ensures forall x :: multiset(r)[x] == if keep(x) then multiset(s)[x] else 0
  {
    if |s| == 0 then []
    else
      assert s == [s[0]] + s[1..];
      if keep(s[0]) then [s[0]] + Filter(keep, s[1..])
      else Filter(keep, s[1..])
  }

  /** Filtering deletes elements and never reorders the ones it keeps. */
  lemma {:induction false} FilterIsSubsequence<T(!new)>(keep: T -> bool, s: seq<T>)
    ensures IsSubsequence(Filter(keep, s), s)
    decreases |s|
  {
    if |s| > 0 {
      FilterIsSubsequence(keep, s[1..]);
      var r := Filter(keep, s);
      if keep(s[0]) {
        assert r[1..] == Filter(keep, s[1..]);
      } else if |r| > 0 {
        assert keep(r[0]);
      }
    }
  }

  /** Dropping the first element of a subsequence leaves a subsequence. */
  lemma {:induction false} SubsequenceTail<T>(a: seq<T>, b: seq<T>)
    requires |a| > 0 && IsSubsequence(a, b)
    ensures IsSubsequence(a[1..], b)
    decreases |b|, 0
  {
    if a[0] == b[0] {
      SubsequenceCons(a[1..], b[1..], b[0]);
      assert [b[0]] + b[1..] == b;
    } else {
      SubsequenceTail(a, b[1..]);
      SubsequenceCons(a[1..], b[1..], b[0]);
      assert [b[0]] + b[1..] == b;
    }
  }

  /** The position of the first occurrence of `x` in `s`. */
  function FirstIndex<T(==)>(s: seq<T>, x: T): (k: nat)
    requires x in s
    ensures k < |s| && s[k] == x && x !in s[..k]
  {
    if s[0] == x then 0
    else
      assert x in s[1..];
      var k := 1 + FirstIndex(s[1..], x);
      assert s[..k] == [s[0]] + s[1..][..k - 1];
      k
  }

  /** Appending an element does not move the first occurrence of one already present. */
  lemma {:induction false} FirstIndexAppend<T>(s: seq<T>, e: T, x: T)
    requires x in s
    ensures FirstIndex(s + [e], x) == FirstIndex(s, x)
    decreases |s|
  {
    var t := s + [e];
    if s[0] != x {
      assert t[1..] == s[1..] + [e];
      assert x in s[1..];
      FirstIndexAppend(s[1..], e, x);
    }
  }

  /**
   * Each distinct element of `s` once, in the order of its first
   * occurrence (how a Python dict built from pairs orders its keys).
   */
  function Dedup<T(==,!new)>(s: seq<T>): (r: seq<T>)
    ensures forall x :: x in r <==> x in s
    ensures forall i, j :: 0 <= i < j < |r| ==> r[i] != r[j]
    ensures forall i, j :: 0 <= i < j < |r| ==> FirstIndex(s, r[i]) < FirstIndex(s, r[j])
    decreases |s|
  {
    if |s| == 0 then []
    else
      var init := s[..|s| - 1];
      var last := s[|s| - 1];
      assert s == init + [last];
      var p := Dedup(init);
      forall x | x in init
        ensures FirstIndex(s, x) == FirstIndex(init, x)
      {
        FirstIndexAppend(init, last, x);
      }
      if last in init then p
      else
        assert FirstIndex(s, last) == |s| - 1;
        p + [last]
  }

  /** A subsequence of `b` is a subsequence of `b` with an element put in front. */
  lemma {:induction false} SubsequenceCons<T>(a: seq<T>, b: seq<T>, e: T)
    requires IsSubsequence(a, b)
    ensures IsSubsequence(a, [e] + b)
    decreases |b|, 1
  {
    if |a| > 0 && a[0] == e {
      SubsequenceTail(a, b);
      assert ([e] + b)[1..] == b;
    } else if |a| > 0 {
      assert ([e] + b)[1..] == b;
    }
  }

  /** Every element of a subsequence is an element of the sequence it was drawn from. */
  lemma {:induction false} SubsequenceMembers<T>(a: seq<T>, b: seq<T>)
    requires IsSubsequence(a, b)
    ensures forall x :: x in a ==> x in b
    decreases |b|
  {
    if |a| > 0 && |b| > 0 {
      if a[0] == b[0] {
        SubsequenceMembers(a[1..], b[1..]);
        forall x | x in a
          ensures x in b
        {
          if x != a[0] {
            assert x in a[1..];
          }
        }
      } else {
        SubsequenceMembers(a, b[1..]);
      }
    }
  }
}

=== FILE: text.dfy ===
/** Whitespace stripping: Python's `str.strip()` and JavaScript's `String.prototype.trim()`. */
module Text {

  datatype Runtime = Python | JavaScript

  /**
   * The characters each runtime strips. Python strips what `str.isspace`
   * accepts; JavaScript strips WhiteSpace and LineTerminator of ECMA-262.
   * They differ on U+001C..U+001F and U+0085 (Python only) and U+FEFF
   * (JavaScript only).
   */
  predicate IsSpace(rt: Runtime, c: char) {
    || c == '\t' || c == '\n' || c == '\U{000B}' || c == '\U{000C}' || c == '\r' || c == ' '
    || c == '\U{00A0}' || c == '\U{1680}' || ('\U{2000}' <= c <= '\U{200A}')
    || c == '\U{2028}' || c == '\U{2029}' || c == '\U{202F}' || c == '\U{205F}' || c == '\U{3000}'
    || (rt == Python && (('\U{001C}' <= c <= '\U{001F}') || c == '\U{0085}'))
    || (rt == JavaScript && c == '\U{FEFF}')
  }

  predicate AllSpace(rt: Runtime, s: string) {
    forall k :: 0 <= k < |s| ==> IsSpace(rt, s[k])
  }

  /** Neither end of `s` is a space character. */
  predicate Trimmed(rt: Runtime, s: string) {
    |s| == 0 || (!IsSpace(rt, s[0]) && !IsSpace(rt, s[|s| - 1]))
  }

  function TrimStart(rt: Runtime, s: string): (r: string)
    ensures |r| <= |s| && r == s[|s| - |r|..]
    ensures AllSpace(rt, s[..|s| - |r|])
    ensures |r| > 0 ==> !IsSpace(rt, r[0])
  {
    if |s| > 0 && IsSpace(rt, s[0]) then TrimStart(rt, s[1..]) else s
  }

  function TrimEnd(rt: Runtime, s: string): (r: string)
    ensures |r| <= |s| && r == s[..|r|]
    ensures AllSpace(rt, s[|r|..])
    ensures |r| > 0 ==> !IsSpace(rt, r[|r| - 1])
  {
    if |s| > 0 && IsSpace(rt, s[|s| - 1]) then TrimEnd(rt, s[..|s| - 1]) else s
  }

  /** `r` occurs in `s` as a contiguous slice. */
  predicate IsInfix(r: string, s: string) {
    exists i {:trigger s[i..]} :: 0 <= i <= |s| && r <= s[i..]
  }

  /** `r` is a slice of `s` with only space characters before it and after it. */
  predicate CutBetweenSpaces(rt: Runtime, r: string, s: string) {
    exists i :: 0 <= i <= |s| - |r| && r == s[i..i + |r|] && AllSpace(rt, s[..i]) && AllSpace(rt, s[i + |r|..])
  }

  /**
   * Strip leading and trailing space characters: the result is a slice of
   * `s` with no space at either end (`TrimCutsOnlySpaces`: and only spaces
   * are cut off on either side of it).
   */
  function Trim(rt: Runtime, s: string): (r: string)
    ensures Trimmed(rt, r)
    ensures IsInfix(r, s)
  {
    var t := TrimStart(rt, s);
    var r := TrimEnd(rt, t);
    SpacesAround(rt, s, t, r);
    r
  }

  /** Stripping the empty string gives the empty string. */
  lemma TrimEmpty(rt: Runtime)
    ensures Trim(rt, "") == ""
  {
    assert |Trim(rt, "")| == 0;
  }

  /** What stripping removes is whitespace only, from the two ends. */
  lemma TrimCutsOnlySpaces(rt: Runtime, s: string)
    ensures CutBetweenSpaces(rt, Trim(rt, s), s)
  {
    var t := TrimStart(rt, s);
    SpacesAround(rt, s, t, TrimEnd(rt, t));
  }

  /**
   * `t` is `s` less leading spaces and `r` is `t` less trailing spaces, so
   * `r` is a slice of `s` that sits between two runs of spaces.
   */
  lemma SpacesAround(rt: Runtime, s: string, t: string, r: string)
    requires |t| <= |s| && t == s[|s| - |t|..] && AllSpace(rt, s[..|s| - |t|])
    requires |r| <= |t| && r == t[..|r|] && AllSpace(rt, t[|r|..])
    requires |t| > 0 ==> !IsSpace(rt, t[0])
    requires |r| > 0 ==> !IsSpace(rt, r[|r| - 1])
    ensures Trimmed(rt, r)
    ensures IsInfix(r, s)
    ensures CutBetweenSpaces(rt, r, s)
  {
    var i := |s| - |t|;
    assert r <= s[i..];
    assert r == s[i..i + |r|];
    assert s[i + |r|..] == t[|r|..];
    if |r| > 0 {
      assert r[0] == t[0];
    }
  }

  /** Stripping leaves nothing exactly when the string is made of spaces only. */
  lemma TrimEmptyIffAllSpace(rt: Runtime, s: string)
    ensures |Trim(rt, s)| == 0 <==> AllSpace(rt, s)
  {
    var t := TrimStart(rt, s);
    var r := TrimEnd(rt, t);
    if |t| == 0 {
      assert s[..|s|] == s;
    } else {
      assert s[|s| - |t|] == t[0];
      assert !IsSpace(rt, t[0]);
    }
  }

  /** A string with no space at either end is left unchanged by trimming. */
  lemma TrimOfTrimmed(rt: Runtime, s: string)
    requires Trimmed(rt, s)
    ensures Trim(rt, s) == s
  {
  }

  /** Stripping twice is stripping once. */
  lemma TrimIdempotent(rt: Runtime, s: string)
    ensures Trim(rt, Trim(rt, s)) == Trim(rt, s)
  {
    TrimOfTrimmed(rt, Trim(rt, s));
  }
}

=== FILE: url.dfy ===
/**
 * A restricted model of URL reference resolution against the fixed base
 * `https://udn.com`. Python's `urllib.parse.urljoin` follows section 5.2 of
 * RFC 3986 and JavaScript's `new URL(link, base)` follows the WHATWG URL
 * Standard; on the three link forms modelled here neither library rewrites
 * anything beyond what is written out below. Every other form resolves to
 * `None`, meaning "outside this model".
 */
module Url {
  import opened Wrappers
  import Decimal

  /** The base every link is resolved against. */
  const Origin: string := "https://udn.com"

  predicate IsLower(c: char) { 'a' <= c <= 'z' }

  /**
   * Path characters neither library percent-encodes or reinterprets:
   * letters, digits and the RFC 3986 unreserved and sub-delimiter marks
   * except `;`, plus `:`, `@` and `/`. Left out on purpose: `;` (for http(s)
   * `urljoin` splits parameters off the last segment at a `;` and drops them
   * again when they are empty, so `/a;` becomes `/a`), `%` (WHATWG decodes
   * `%2e` as a dot), `\` (WHATWG reads it as `/`), `?`, `#`, spaces and
   * controls.
   */
  predicate PathChar(c: char) {
    || IsLower(c) || ('A' <= c <= 'Z') || Decimal.IsDigit(c)
    || c == '-' || c == '.' || c == '_' || c == '~' || c == '!' || c == '$' || c == '&' || c == '\''
    || c == '(' || c == ')' || c == '*' || c == '+' || c == ',' || c == '=' || c == ':'
    || c == '@' || c == '/'
  }

  /** A `.` or `..` segment starts at position `j` of `p`. */
  predicate DotSegmentAt(p: string, j: nat) {
    && j < |p| && p[j] == '.'
    && (j + 1 == |p| || p[j + 1] == '/' || (p[j + 1] == '.' && (j + 2 == |p| || p[j + 2] == '/')))
  }

  /**
   * From position `i` on, `p` holds only path characters and no `.` or `..`
   * segment, so there is nothing for either library to encode or remove.
   */
  predicate PathFrom(p: string, i: nat)
    decreases |p| - i
  {
    i >= |p| || (PathChar(p[i]) && !(p[i] == '/' && DotSegmentAt(p, i + 1)) && PathFrom(p, i + 1))
  }

  /**
   * A root-relative path both libraries copy verbatim: it starts with one
   * `/` (two would make it a network-path reference) and `PathFrom` holds.
   */
  predicate PlainPath(p: string) {
    |p| >= 1 && p[0] == '/' && (|p| == 1 || p[1] != '/') && PathFrom(p, 0)
  }

  predicate HostChar(c: char) {
    IsLower(c) || Decimal.IsDigit(c) || c == '-' || c == '.'
  }

  /** From position `i` on, `h` holds only host characters and neither `..` (an empty label) nor `--`. */
  predicate HostCharsFrom(h: string, i: nat)
    decreases |h| - i
  {
    i >= |h| || (HostChar(h[i]) && !(i + 1 < |h| && (h[i] == '.' || h[i] == '-') && h[i + 1] == h[i]) && HostCharsFrom(h, i + 1))
  }

  /** Index just past the last `.` among the first `i` characters of `h`, or 0 when there is none. */
  function LabelStart(h: string, i: nat): (r: nat)
    requires i <= |h|
    ensures r <= i
  {
    if i == 0 then 0
    else if h[i - 1] == '.' then i
    else LabelStart(h, i - 1)
  }

  /**
   * A host name both libraries keep as written: lower-case letters, digits,
   * `-` and `.`, no empty label, no `--` (which could start a punycode
   * label), and a last label starting with a letter so that WHATWG does not
   * read the host as an IPv4 number.
   */
  predicate PlainHost(h: string) {
    && |h| > 0 && h[0] != '.' && h[|h| - 1] != '.'
    && HostCharsFrom(h, 0)
    && LabelStart(h, |h|) < |h| && IsLower(h[LabelStart(h, |h|)])
  }

  /** The link forms this model resolves. */
  datatype LinkForm =
    | EmptyRef
    | RootPath(path: string)
    | Absolute(secure: bool, host: string, path: string)

  /** `https://` for a secure link, `http://` otherwise. */
  function SchemeText(secure: bool): string {
    if secure then "https://" else "http://"
  }

  predicate WellFormed(f: LinkForm) {
    match f
    case EmptyRef => true
    case RootPath(p) => PlainPath(p)
    case Absolute(_, host, path) => PlainHost(host) && (path == "" || PlainPath(path))
  }

  function Render(f: LinkForm): string {
    match f
    case EmptyRef => ""
    case RootPath(p) => p
    case Absolute(secure, host, path) => SchemeText(secure) + host + path
  }

  /** The first `/` at or after `from`, or the end of `s`. */
  function SlashFrom(s: string, from: nat): (r: nat)
    requires from <= |s|
    ensures from <= r <= |s|
    ensures r < |s| ==> s[r] == '/'
    ensures forall k :: from <= k < r ==> s[k] != '/'
    decreases |s| - from
  {
    if from == |s| || s[from] == '/' then from else SlashFrom(s, from + 1)
  }

  /** Whether `link` starts with `https://` (true) or `http://` (false). */
  function SchemeOf(link: string): (r: Option<bool>)
    ensures r.Some? ==> |SchemeText(r.value)| <= |link| && link[..|SchemeText(r.value)|] == SchemeText(r.value)
  {
    if |link| >= 7 && link[0] == 'h' && link[1] == 't' && link[2] == 't' && link[3] == 'p' then
      if link[4] == ':' && link[5] == '/' && link[6] == '/' then Some(false)
      else if |link| >= 8 && link[4] == 's' && link[5] == ':' && link[6] == '/' && link[7] == '/' then Some(true)
      else None
    else None
  }

  /** Recognise a link as one of the modelled forms. */
  function Classify(link: string): (r: Option<LinkForm>)
    ensures r.Some? ==> WellFormed(r.value) && Render(r.value) == link
  {
    if link == "" then Some(EmptyRef)
    else if PlainPath(link) then Some(RootPath(link))
    else if SchemeOf(link).None? then None
    else
      var f := SplitAbsolute(link, SchemeOf(link).value);
      if WellFormed(f) then Some(f) else None
  }

  /** Split what follows the `http(s)://` prefix of `link` into host and path. */
  function SplitAbsolute(link: string, secure: bool): (f: LinkForm)
    requires |SchemeText(secure)| <= |link| && link[..|SchemeText(secure)|] == SchemeText(secure)
    ensures f.Absolute? && Render(f) == link
  {
    var n := |SchemeText(secure)|;
    var end := SlashFrom(link, n);
    SplitThree(link, n, end);
    Absolute(secure, link[n..end], link[end..])
  }

  lemma SplitThree(s: string, i: nat, j: nat)
    requires i <= j <= |s|
    ensures s == s[..i] + s[i..j] + s[j..]
  {
  }

  /** Every well-formed link form is recognised as itself. */
  lemma ClassifyRender(f: LinkForm)
    requires WellFormed(f)
    ensures Classify(Render(f)) == Some(f)
  {
    if f.Absolute? {
      ClassifyAbsolute(f.secure, f.host, f.path);
    }
  }

  lemma ClassifyAbsolute(secure: bool, host: string, path: string)
    requires WellFormed(Absolute(secure, host, path))
    ensures Classify(SchemeText(secure) + host + path) == Some(Absolute(secure, host, path))
  {
    var link := SchemeText(secure) + host + path;
    assert link == SchemeText(secure) + (host + path);
    SchemeOfPrefix(secure, host + path);
    SplitRendered(secure, host, path);
    assert link[0] == 'h';
    ClassifyWithScheme(link, secure);
  }

  /** A link that starts with a scheme is classified by splitting off its host. */
  lemma ClassifyWithScheme(link: string, secure: bool)
    requires |link| > 0 && link[0] == 'h' && SchemeOf(link) == Some(secure)
    requires WellFormed(SplitAbsolute(link, secure))
    ensures Classify(link) == Some(SplitAbsolute(link, secure))
  {
    assert !PlainPath(link);
  }

  lemma SplitRendered(secure: bool, host: string, path: string)
    requires HostCharsFrom(host, 0)
    requires path == "" || path[0] == '/'
    ensures var link := SchemeText(secure) + host + path;
      link[..|SchemeText(secure)|] == SchemeText(secure) && SplitAbsolute(link, secure) == Absolute(secure, host, path)
  {
    var link := SchemeText(secure) + host + path;
    var n := |SchemeText(secure)|;
    assert link[..n] == SchemeText(secure);
    HostHasNoSlash(host, 0);
    HostEndsAtSlash(SchemeText(secure), host, path);
    assert link[n..n + |host|] == host;
    assert link[n + |host|..] == path;
  }

  lemma {:induction false} HostHasNoSlash(h: string, i: nat)
    requires HostCharsFrom(h, i)
    ensures forall k :: i <= k < |h| ==> h[k] != '/'
    decreases |h| - i
  {
    if i < |h| {
      HostHasNoSlash(h, i + 1);
    }
  }

  lemma SchemeOfPrefix(secure: bool, rest: string)
    ensures SchemeOf(SchemeText(secure) + rest) == Some(secure)
  {
    var link := SchemeText(secure) + rest;
    assert link[..|SchemeText(secure)|] == SchemeText(secure);
    if !secure {
      assert link[4] == ':';
    }
  }

  lemma HostEndsAtSlash(prefix: string, host: string, path: string)
    requires forall k :: 0 <= k < |host| ==> host[k] != '/'
    requires path == "" || path[0] == '/'
    ensures SlashFrom(prefix + host + path, |prefix|) == |prefix| + |host|
  {
    var hp := host + path;
    var link := prefix + hp;
    assert prefix + host + path == link;
    var n := |prefix|;
    forall k | n <= k < n + |host|
      ensures link[k] != '/'
    {
      assert link[k] == hp[k - n] == host[k - n];
    }
    if |path| > 0 {
      assert link[n + |host|] == hp[|host|] == path[0];
    }
    SlashFromSkips(link, n, n + |host|);
  }

  /** `SlashFrom` walks over a slash-free stretch and stops at the next slash or the end. */
  lemma {:induction false} SlashFromSkips(s: string, from: nat, stop: nat)
    requires from <= stop <= |s|
    requires forall k :: from <= k < stop ==> s[k] != '/'
    requires stop == |s| || s[stop] == '/'
    ensures SlashFrom(s, from) == stop
    decreases stop - from
  {
    if from < stop {
      SlashFromSkips(s, from + 1, stop);
    }
  }

  /** A link `urljoin` and `new URL` both return unchanged: absolute, with a host. */
  predicate IsAbsoluteUrl(s: string) {
    Classify(s).Some? && Classify(s).value.Absolute?
  }

  lemma OriginIsAbsolute()
    ensures Classify(Origin) == Some(Absolute(true, "udn.com", ""))
  {
    assert PlainHost("udn.com");
    assert Render(Absolute(true, "udn.com", "")) == Origin;
    ClassifyRender(Absolute(true, "udn.com", ""));
  }

  /** The base joined with a root-relative path: an absolute URL on the base's host. */
  lemma OnOrigin(p: string)
    requires PlainPath(p)
    ensures Classify(Origin + p) == Some(Absolute(true, "udn.com", p))
  {
    assert PlainHost("udn.com");
    assert SchemeText(true) + "udn.com" == Origin;
    ClassifyRender(Absolute(true, "udn.com", p));
  }

  /** A host-only absolute link with `/` appended is the same host with path `/`. */
  lemma HostOnlyGainsSlash(secure: bool, host: string)
    requires PlainHost(host)
    ensures Classify(SchemeText(secure) + host + "" + "/") == Some(Absolute(secure, host, "/"))
  {
    assert PlainPath("/");
    assert SchemeText(secure) + host + "" + "/" == SchemeText(secure) + host + "/";
    ClassifyAbsolute(secure, host, "/");
  }

  /**
   * `urllib.parse.urljoin("https://udn.com", link)`: the empty link yields
   * the base itself (no trailing slash), a root-relative path is appended
   * to the base, and an absolute link is returned as written.
   */
  function PyUrljoin(link: string): (r: Option<string>)
    ensures r.Some? <==> Classify(link).Some?
    ensures r.Some? ==> IsAbsoluteUrl(r.value)
    ensures r.Some? && !IsAbsoluteUrl(link) ==> Classify(r.value).value.host == "udn.com"
    ensures Classify(link) == Some(EmptyRef) ==> r == Some(Origin)
    ensures Classify(link).Some? && Classify(link).value.Absolute? ==> r == Some(link)
  {
    match Classify(link)
    case None => None
    case Some(EmptyRef) => OriginIsAbsolute(); Some(Origin)
    case Some(RootPath(p)) => OnOrigin(p); Some(Origin + p)
    case Some(Absolute(_, _, _)) => Some(link)
  }

  /**
   * `new URL(link, "https://udn.com").toString()`: as `urljoin`, except that
   * WHATWG serialises an empty path of an http(s) URL as `/`, so the empty
   * link and a host-only absolute link gain a trailing slash.
   */
  function JsUrl(link: string): (r: Option<string>)
    ensures r.Some? <==> Classify(link).Some?
    ensures r.Some? ==> IsAbsoluteUrl(r.value) && Classify(r.value).value.path != ""
    ensures r.Some? ==> |r.value| > 0
    ensures r.Some? && !IsAbsoluteUrl(link) ==> Classify(r.value).value.host == "udn.com"
    ensures Classify(link) == Some(EmptyRef) ==> r == Some(Origin + "/")
  {
    match Classify(link)
    case None => None
    case Some(EmptyRef) => assert PlainPath("/"); OnOrigin("/"); Some(Origin + "/")
    case Some(RootPath(p)) => OnOrigin(p); Some(Origin + p)
    case Some(Absolute(secure, host, path)) =>
      if path == "" then
        HostOnlyGainsSlash(secure, host);
        Some(link + "/")
      else Some(link)
  }

  /**
   * Where `urljoin` sends each modelled link: the empty link to the base
   * itself, a root-relative path `p` to `https://udn.com` with path `p`,
   * and an absolute link to itself.
   */
  lemma PyUrljoinTarget(link: string)
    requires Classify(link).Some?
    ensures var f := Classify(link).value;
      Classify(PyUrljoin(link).value) ==
        Some(if f.EmptyRef? then Absolute(true, "udn.com", "")
             else if f.RootPath? then Absolute(true, "udn.com", f.path)
             else f)
  {
    var f := Classify(link).value;
    if f.EmptyRef? {
      OriginIsAbsolute();
    } else if f.RootPath? {
      OnOrigin(f.path);
    }
  }

  /**
   * Where `new URL` sends each modelled link: the empty link to
   * `https://udn.com` with path `/`, a root-relative path `p` to
   * `https://udn.com` with path `p`, and an absolute link to the same
   * scheme, host and path, an empty path becoming `/`.
   */
  lemma JsUrlTarget(link: string)
    requires Classify(link).Some?
    ensures var f := Classify(link).value;
      Classify(JsUrl(link).value) ==
        Some(if f.EmptyRef? then Absolute(true, "udn.com", "/")
             else if f.RootPath? then Absolute(true, "udn.com", f.path)
             else Absolute(f.secure, f.host, if f.path == "" then "/" else f.path))
  {
    var f := Classify(link).value;
    if f.EmptyRef? {
      assert PlainPath("/");
      OnOrigin("/");
    } else if f.RootPath? {
      OnOrigin(f.path);
    } else if f.path == "" {
      HostOnlyGainsSlash(f.secure, f.host);
    }
  }

  /** Resolving an already resolved link changes nothing (Python). */
  lemma PyUrljoinIdempotent(link: string)
    requires PyUrljoin(link).Some?
    ensures PyUrljoin(PyUrljoin(link).value) == PyUrljoin(link)
  {
  }

  /** Resolving an already resolved link changes nothing (JavaScript). */
  lemma JsUrlIdempotent(link: string)
    requires JsUrl(link).Some?
    ensures JsUrl(JsUrl(link).value) == JsUrl(link)
  {
  }

  /**
   * The two resolvers agree on every modelled link except those whose
   * resolution has an empty path: there JavaScript adds the `/` Python omits.
   */
  lemma ResolversDifferOnlyBySlash(link: string)
    requires Classify(link).Some?
    ensures var py := PyUrljoin(link).value;
      && (Classify(py).value.path != "" ==> JsUrl(link).value == py)
      && (Classify(py).value.path == "" ==> JsUrl(link).value == py + "/")
  {
    match Classify(link).value
    case EmptyRef => OriginIsAbsolute();
    case RootPath(p) => OnOrigin(p);
    case Absolute(_, _, _) =>
  }

  /** A story path resolves onto the base in both runtimes. */
  lemma StoryLink()
    ensures PyUrljoin("/story/123") == Some("https://udn.com/story/123")
    ensures JsUrl("/story/123") == Some("https://udn.com/story/123")
  {
    assert PlainPath("/story/123");
    assert Origin + "/story/123" == "https://udn.com/story/123";
  }

  /** The empty link resolves to the bare base in Python, and to the base with a `/` path in JavaScript. */
  lemma EmptyLink()
    ensures PyUrljoin("") == Some("https://udn.com")
    ensures JsUrl("") == Some("https://udn.com/")
  {
    assert Origin + "/" == "https://udn.com/";
  }
}

=== FILE: wrappers.dfy ===
/** Failure-compatible wrappers shared by every module of the model. */
module Wrappers {

  /** An optional value; `None` plays the part of a missing key or `undefined`. */
  datatype Option<+T> = None | Some(value: T)

  /** The outcome of an operation that may raise: `Failure` carries the exception. */
  datatype Result<+T, +E> = Success(value: T) | Failure(error: E) {

    predicate IsFailure() {
      Failure?
    }

    function PropagateFailure<U>(): Result<U, E>
      requires Failure?
    {
      Failure(error)
    }

    function Extract(): T
      requires Success?
    {
      value
    }
  }
}
